=== FILE: README.md ===
# semkon — a Dafny model of the deterministic core

semkon scans a repository for propositions that are written in natural language
and proved in the documentation. It has a language model check each proof. It
prints one verdict per proposition, and it exits with status 1 when any verdict
is not "correct". Almost all of it is glue around model calls. This project
models the parts that are not:

- **File discovery** (`FileFilter`): a gitignore-aware walk of an immutable
  directory tree.
  - Global rules (the caller's patterns plus `**/.git/`) apply everywhere.
  - Each directory's `.gitignore` rules apply to that directory and everything
    below it.
  - A matched subdirectory is pruned.
  - A file is listed only when it is regular, below 100 KiB, decodes as text
    and no rule in force matches it.
  - The listing is then sorted (`Paths`).
- **Rendering** (`Format`): `_format_file`, the line-numbered text sent for
  extraction, with the `(empty)` header for a file with no lines.
- **Extraction** (`Extraction`):
  - the whole-word, case-insensitive "proof" gate;
  - the optional `* <filter>` criterion line;
  - the request handed to the extraction service;
  - the collection of one location per extracted proposition, file by file in
    sorted order.
- **Aggregation** (`Report`): the end of `main`.
  - Results gathered in submission order whatever the completion order.
  - Positional pairing of locations with verdicts.
  - The exit status.
- **Records** (`DataModels`): the verdict enumeration and the three records.

The extraction service and the proof checker are function values (`Oracle`,
`Checker`). The model says exactly when each is consulted and with what. It
says nothing about what they answer. The ignore-pattern library
(`gitignore_parser`) is the pair of function values in `FileFilter.IgnoreLib`:
`fromPattern` (a pattern line and its base directory give a rule or nothing)
and `matches`. The directory tree is the value `FileFilter.Node`. Each file
carries its size, whether it decodes as text, and its content.

`FileFilter.Reaches` is a reference definition of eligibility. It follows one
path down the tree, level by level. `FileFilter.WalkIff` proves the
enumeration lists exactly the paths it accepts. The properties about pruning,
rule scope and sibling isolation are proved through it.

`sorted()` compares `pathlib.Path` objects component by component, not as
path strings, and the two orders differ: `a/b` sorts before `a-b/x` by components, but after it as
strings, because '-' is below '/'. `Paths.PathLess` is the component order.

## Model

| member | source | states |
|---|---|---|
| DataModels.ParseCorrectness | semkon/data_models.py:12-14 | a verdict is valid exactly when it is one of "correct", "incorrect", "unknown", and it reads back to the verdict with that name |
| FileFilter.SmallFileBoundary | semkon/find_properties.py:15-27 | a file is small iff its size is strictly below 102400 bytes; 102399 passes and 102400 does not |
| FileFilter.GitignoreRules | semkon/find_properties.py:58-68 | no contract of its own: the directory's own rules are those `FileFilter.ParseRules` keeps from its `.gitignore` lines, or none without that file; the rule-scope lemmas below state their effect |
| FileFilter.ParseRules | semkon/find_properties.py:38-42 | every rule comes from one of the patterns; every pattern that parses contributes its rule; a pattern that parses to nothing contributes none |
| FileFilter.Walk | semkon/find_properties.py:44-91 | no contract of its own: `FileFilter.WalkSound`, `FileFilter.WalkComplete` and `FileFilter.WalkIff` characterise the listing as exactly the paths `FileFilter.Reaches` accepts, and `FileFilter.WalkDistinct` shows each is listed once |
| FileFilter.Files | semkon/find_properties.py:70-80 | no contract of its own: `FileFilter.FilesIff` characterises the file loop |
| FileFilter.Subdirs | semkon/find_properties.py:82-89 | no contract of its own: `FileFilter.SubdirsSound` and `FileFilter.SubdirsComplete` characterise the directory loop |
| FileFilter.FilesIff | semkon/find_properties.py:70-80 | the file loop lists a path iff it is `dirPath/name` for an entry that is a regular, small, text file that no active rule matches |
| FileFilter.SubdirsSound | semkon/find_properties.py:82-89 | every path from the directory loop lies in the listing of an unmatched subdirectory |
| FileFilter.SubdirsComplete | semkon/find_properties.py:82-89 | the whole listing of every unmatched subdirectory is part of the directory loop's output |
| FileFilter.WalkSound | semkon/find_properties.py:44-91 | every listed path lies below the directory and is accepted by the level-by-level reference definition |
| FileFilter.WalkComplete | semkon/find_properties.py:44-91 | every path below the directory that the reference definition accepts is listed |
| FileFilter.WalkIff | semkon/find_properties.py:44-91 | a path is listed iff it lies below the directory and the reference definition accepts it |
| FileFilter.FilesDistinct | semkon/find_properties.py:70-80 | in a directory whose entry names are distinct, the file loop lists no path twice |
| FileFilter.WalkDistinct | semkon/find_properties.py:44-91 | the walk lists no path twice: a directory's files lie one level below it, and each subdirectory's listing lies below that subdirectory |
| FileFilter.SubdirsDistinct | semkon/find_properties.py:82-89 | the subdirectory loop lists no path twice, since different subdirectories' listings start with different names |
| FileFilter.AbsPaths | semkon/find_properties.py:95-96 | no contract of its own: the walk from the scan root with the global rules; `FileFilter.RelPathsIff` characterises what it lists |
| FileFilter.RelPaths | semkon/find_properties.py:94-97 | the result is sorted and is a permutation of the walk's listing |
| FileFilter.RelPathsIff | semkon/find_properties.py:94-97 | a relative path is returned iff it is eligible |
| FileFilter.RelPathsStrict | semkon/find_properties.py:94-97 | the sorted listing is strictly ascending, so every eligible file appears exactly once |
| FileFilter.RelPathsSortedUnique | semkon/find_properties.py:94-97 | sorting any rearrangement of the walk's listing gives the same result, so the order entries are visited in does not matter |
| FileFilter.ReachesCandidate | semkon/find_properties.py:70-80 | an accepted path names a regular, small, text file in the tree, and no global rule matches it |
| FileFilter.ListedAreSmallTextFiles | semkon/find_properties.py:70-80 | every returned path names a regular file below 102400 bytes that decodes as text and that no global rule matches |
| FileFilter.PrunedSubtree | semkon/find_properties.py:82-89 | when an active rule matches a subdirectory, no path inside it is listed |
| FileFilter.InheritedRuleExcludes | semkon/find_properties.py:56-88 | a rule a directory inherits excludes every path it matches in that directory's subtree |
| FileFilter.OwnRuleExcludes | semkon/find_properties.py:58-68 | a rule from a directory's own `.gitignore` excludes every path it matches below that directory |
| FileFilter.DirectoryRuleCoversSubtree | semkon/find_properties.py:58-68 | nothing a directory's own `.gitignore` rule matches is listed from that directory |
| FileFilter.SubtreeIsolation | semkon/find_properties.py:56-89 | replacing the contents of one subdirectory, its `.gitignore` included, changes nothing about whether a path outside that subdirectory is listed |
| Paths.PathLessTotal | semkon/find_properties.py:97 | any two distinct paths are ordered one way or the other |
| Paths.PathLessTransitive | semkon/find_properties.py:97 | the path order is transitive |
| Paths.PathLessIrreflexive | semkon/find_properties.py:97 | no path is below itself |
| Paths.Sort | semkon/find_properties.py:97 | the result is sorted and a permutation of the input |
| Paths.SortedUnique | semkon/find_properties.py:97 | two sorted sequences with the same elements are equal |
| Paths.SortIgnoresOrder | semkon/find_properties.py:97 | rearranging the input does not change the sorted output |
| Text.SplitLines | semkon/find_properties.py:102 | no line contains a line break, and there are no lines exactly when the text is empty |
| Text.SplitTerminated | semkon/find_properties.py:102 | splitting the printed form of newline-free lines gives the lines back |
| Text.TerminatedSplit | semkon/find_properties.py:102 | printing the lines of a text gives the text back, with a final '\n' added when it lacked one |
| Format.NumDigitsIsLog10 | semkon/find_properties.py:112 | the width is floor(log10 n) + 1: 10^(w-1) <= n < 10^w |
| Format.NumDigitsMonotone | semkon/find_properties.py:112-114 | no line number up to n has more digits than n, so no number is wider than the column |
| Format.DecimalString | semkon/find_properties.py:114 | the decimal form of n has exactly NumDigits(n) characters, all digits |
| Format.ParseDecimalString | semkon/find_properties.py:114 | reading the decimal form of n back gives n |
| Format.RightAlign | semkon/find_properties.py:114 | the result is as wide as the column (never truncated), ends with the text and is padded with spaces in front |
| Format.Title | semkon/find_properties.py:101 | no contract of its own: the file name shown in the header, "<file>" without a path; `Format.FormatEmptyLines` and `Format.FormatNumberedLines` show where it appears |
| Format.NumberedLines | semkon/find_properties.py:112-116 | one numbered line per source line; `Format.NumberedLineShape` and `Format.NumberedLineRoundTrip` state the shape of each and that it reads back |
| Format.FormatFile | semkon/find_properties.py:100-125 | no contract of its own: `Format.FormatNumberedLines`, `Format.FormatEmptyLines`, `Format.FormatRoundTrip` and `Format.FormatEmptyRoundTrip` characterise the rendering |
| Format.NumberedLineShape | semkon/find_properties.py:114 | a numbered line is the space-padded number filling the column, then " \| ", then the source line |
| Format.NumberedLineRoundTrip | semkon/find_properties.py:114 | when the number fits the column, the numbered line is width + 3 + the line's length long, and parsing it gives back the number and the source line |
| Format.FormatNumberedLines | semkon/find_properties.py:112-125 | a file with lines renders as the four header lines, one numbered line per source line and two blank lines, each followed by '\n' |
| Format.FormatSplit | semkon/find_properties.py:112-125 | splitting the rendering of a file with lines gives exactly its rendered lines |
| Format.FormatRoundTrip | semkon/find_properties.py:112-125 | the rendering has n + 6 lines, and line 3 + k reads back as the number k and source line k, for every k from 1 to n |
| Format.FormatEmptyLines | semkon/find_properties.py:101-110 | a file with no lines is empty text, and it renders as separator, "<name> (empty)", separator and two blank lines |
| Format.FormatEmptyRoundTrip | semkon/find_properties.py:104-110 | the rendering of a file with no lines splits into exactly those five lines, none of them numbered |
| Extraction.SearchProof | semkon/find_properties.py:141 | the search returns the leftmost whole-word, case-insensitive "proof" at or after the start point, or nothing when there is none |
| Extraction.SearchProofIff | semkon/find_properties.py:141 | the search succeeds iff the text holds the word |
| Extraction.PrefilterAccepts | semkon/find_properties.py:141 | "Proof: by induction." and "see the PROOF" pass the gate |
| Extraction.PrefilterRejectsPlural | semkon/find_properties.py:141 | "proofs follow" does not pass |
| Extraction.PrefilterRejectsCompound | semkon/find_properties.py:141 | "waterproof" does not pass |
| Extraction.PrefilterRejectsIdentifier | semkon/find_properties.py:141 | "proof_of_work" does not pass: '_' is a word character |
| Extraction.TrimStart | semkon/find_properties.py:144 | the result is a suffix of the input, everything dropped is whitespace and it does not start with whitespace |
| Extraction.TrimEnd | semkon/find_properties.py:144 | the result is a prefix of the input, everything dropped is whitespace and it does not end with whitespace |
| Extraction.StripEmptyIff | semkon/find_properties.py:144 | a stripped string is empty iff every character is whitespace |
| Extraction.FilterText | semkon/find_properties.py:144-147 | the criterion line is empty iff there is no filter or it is all whitespace, and otherwise it is exactly "* " + filter |
| Extraction.Request | semkon/find_properties.py:144-162 | no contract of its own: the criterion line of `Extraction.FilterText` and the rendering of `Format.FormatFile`; `Extraction.ExtractPropositions` states that the service receives exactly this request |
| Extraction.ExtractPropositions | semkon/find_properties.py:141-168 | with no whole-word "proof" the result is empty and the service is never consulted; otherwise it is the service's answer to the criterion line plus the rendering of the file |
| Extraction.TreeExtractor | semkon/find_properties.py:181-185 | no contract of its own: extraction applied to the content of the file at a path, named by that path; `Extraction.GetAllPropertiesComplete` and `Extraction.GetAllPropertiesMentionProof` state what it yields |
| Extraction.FileLocations | semkon/find_properties.py:186-190 | one location per proposition extracted from the file, in the service's order, each carrying that file's path and the proposition's line number |
| Extraction.Locations | semkon/find_properties.py:180-190 | there are as many locations as propositions over all files, and every location's path is one of the scanned files |
| Extraction.LocationsAppend | semkon/find_properties.py:180-190 | collecting over two runs of files is collecting over each in turn |
| Extraction.LocationsSplit | semkon/find_properties.py:180-190 | the locations are those of the files before the `i`-th, then the `i`-th file's own block, then those of the files after it |
| Extraction.LocationsComplete | semkon/find_properties.py:180-190 | proposition `j` of the `i`-th file yields the location at index (number of propositions of the earlier files) + `j`, with that file's path and the proposition's line number; so the order within a file is extraction's order, and two propositions on one line give two locations |
| Extraction.LocationsLineNumbers | semkon/find_properties.py:180-190 | each location's line number is one the service returned for that location's file |
| Extraction.ConcatInFileOrder | semkon/find_properties.py:180-190 | one file's locations followed by the locations of files no smaller than it stay in file order |
| Extraction.LocationsInFileOrder | semkon/find_properties.py:180-190 | sorted files give locations in non-decreasing file order |
| Extraction.GetAllProperties | semkon/find_properties.py:171-192 | every location's path is in the sorted list of eligible files |
| Extraction.GetAllPropertiesComplete | semkon/find_properties.py:178-190 | every proposition extracted from an eligible file appears as a location with that file and its line number |
| Extraction.GetAllPropertiesAt | semkon/find_properties.py:178-190 | proposition `j` of the `i`-th file of the sorted listing is the location at index (number of propositions of the files listed before it) + `j`; with `FileFilter.RelPathsStrict` each file has one index, so the result is file by file in listing order and within a file in extraction's order |
| Extraction.GetAllPropertiesEligible | semkon/find_properties.py:178-190 | every location names an eligible file: reachable, not ignored, small and a text file |
| Extraction.GetAllPropertiesMentionProof | semkon/find_properties.py:141-190 | every location names a file whose text holds the word "proof", since other files never reach the service |
| Extraction.GetAllPropertiesInFileOrder | semkon/find_properties.py:178-190 | the locations come file by file, in sorted file order |
| Report.CheckAll | semkon/main.py:58-63 | one verdict per location, verdict i being the checker's answer for location i |
| Report.Gather | semkon/main.py:56-63 | whatever order the tasks finish in, as many results as locations come back, result i belonging to location i |
| Report.Pair | semkon/main.py:65-70 | the pairing is as long as the shorter input, and record i holds location i and verdict i |
| Report.PairUnzip | semkon/main.py:65-70 | with as many verdicts as locations, unzipping the records gives back both lists |
| Report.ExitStatus | semkon/main.py:74-78 | the status is 0 or 1, and it is 1 iff some record's verdict is not written as "correct" |
| Report.ExitStatusZeroIff | semkon/main.py:74-78 | the status is 0 iff every verdict is Correct, so an empty report gives 0 |
| Report.ExitStatusExample | semkon/main.py:74-78 | an Unknown verdict among correct ones gives 1; all correct, or no records, gives 0 |
| Report.Report | semkon/main.py:56-78 | the report's locations are exactly the given ones in order, record i holds the checker's verdict for location i, and the status is 0 iff every verdict is Correct and 1 iff some verdict is not |
| Report.Run | semkon/main.py:47-78 | the report pairs the discovered locations, in order, with the checker's verdicts; the status is 0 iff every verdict is Correct (so 0 when nothing is found) and 1 iff some verdict is not |
| Report.MissingFilterPathIsEmpty | semkon/main.py:50 | a run without `--filter-path` is the run with an empty list of patterns |
| Report.ReportConcurrently | semkon/main.py:56-70 | gathering the checks in any completion order gives the outcome `Report` describes |

## Left out

- Filesystem I/O is replaced by the tree value `FileFilter.Node`. That covers `iterdir`, `stat`, `read_text` and the `UnicodeDecodeError` probe: size and decodability are fields of a file. Nodes that are neither files nor directories are `Special` and never listed. Symbolic links, and cycles through them, are not represented.
- I/O errors other than `UnicodeDecodeError` (semkon/find_properties.py:19-22) are not represented. In the source, a `PermissionError` from `iterdir`, `stat` or `read_text` (semkon/find_properties.py:20, 27, 66, 70, 82, 182) propagates and aborts the whole run; an unreadable file is not skipped. A scan root that is missing or is not a directory likewise aborts the run with `FileNotFoundError` or `NotADirectoryError` (semkon/main.py:47-48). The tree value has no unreadable entry, and `FileFilter.AbsPaths`, `FileFilter.RelPaths` and `Extraction.GetAllProperties` require the root to be a directory, so neither abort is modelled.
- Format.FormatSplit, Format.FormatRoundTrip and Format.FormatEmptyRoundTrip require the title to contain no '\n'. A POSIX file name may contain a newline, and then the header spans more lines and the numbered lines start later. The per-line facts `Format.RenderedLineAt`, `Format.FormatNumberedLines` and `Format.NumberedLineRoundTrip` do not depend on the title.
- Entries of a directory are assumed to have distinct names (`FileFilter.WellFormed`), as on a real filesystem. The enumeration itself does not need this; the equivalence with the reference definition does.
- The absolute prefix that the source passes to the ignore library is the same for every call, so it is folded into `matches`. Paths are relative to the scan root, and `relative_to` is the identity.
- Pattern semantics of `gitignore_parser` are left out; it is a foreign library. `fromPattern` and `matches` are uninterpreted.
- Calls to the extraction service and the proof checker are left out. They are model calls over the network, so they are function values: deterministic per input and never failing. Exceptions, retries and schema-validation failures are not modelled.
- The fixed instruction text of the extraction prompt and of the proof-checking prompt (`prompts.py`) is not modelled. The request holds only its two variable parts: the criterion line and the rendering.
- Concurrency: the process pool, the event loops and `asyncio.gather` appear only as `Report.Gather`, which fills result slots in an arbitrary completion order.
- Command-line parsing, the YAML dump, progress bars and messages on stderr are not modelled.
- Format.NumDigitsIsLog10: the column width is the exact decimal digit count of the line count, not `floor(log10(n)) + 1` computed in floating point.
- Text.SplitLines: `str.splitlines()` is modelled as splitting on '\n' only. The other line boundaries Python recognises ("\r", "\r\n", "\v", "\f", "\x1c"-"\x1e", "\x85", U+2028, U+2029) are not.
- Extraction.HasProofWord: the `\b` boundary uses ASCII word characters `[A-Za-z0-9_]`, and case folding is ASCII only. Python's `re` treats every Unicode letter and digit as a word character.
- Extraction.LocationsLineNumbers: line numbers are whatever the service returns. Nothing ties them to actual lines of the file, because the source does not check them.

=== FILE: data_models.dfy ===
/** The records a run produces, one per discovered proposition. */
module DataModels {
  import opened Wrappers
  import opened Paths

  /** The three verdicts; no other value is valid. */
  datatype Correctness = Correct | Incorrect | Unknown

  /** The JSON value a verdict is written as. */
  function CorrectnessName(c: Correctness): string {
    match c
    case Correct => "correct"
    case Incorrect => "incorrect"
    case Unknown => "unknown"
  }

  /** Validation of a verdict read back as JSON: only the three names are accepted. */
  function ParseCorrectness(s: string): (r: Option<Correctness>)
    ensures r.Some? ==> CorrectnessName(r.value) == s
    ensures r.None? <==> s != "correct" && s != "incorrect" && s != "unknown"
  {
    if s == "correct" then Some(Correct)
    else if s == "incorrect" then Some(Incorrect)
    else if s == "unknown" then Some(Unknown)
    else None
  }

  /** Writing a verdict and validating it gives the verdict back. */
  lemma CorrectnessRoundTrip(c: Correctness)
    ensures ParseCorrectness(CorrectnessName(c)) == Some(c)
  {
  }

  datatype CorrectnessExplanation = CorrectnessExplanation(correctness: Correctness, explanation: string)

  /** Where a proposition's statement begins: a path relative to the scan root and a line. */
  datatype PropertyLocation = PropertyLocation(relPath: Path, lineNum: int)

  datatype PropertyResult = PropertyResult(
    propertyLocation: PropertyLocation,
    correctnessExplanation: CorrectnessExplanation)
}

=== FILE: extraction.dfy ===
/**
  Proposition extraction: the cheap "proof" gate, the optional criterion
  line, the request handed to the extraction service, and the collection of
  locations over all eligible files.

  The extraction service is a function value, so the model says exactly
  when it is consulted and with what. Two simplifications: a word character
  for the `\b` boundary is an ASCII letter, digit or underscore, and case is
  folded for ASCII letters only (the letters of "proof" have no other case
  variants).
 */
module Extraction {
  import opened Wrappers
  import opened Paths
  import opened DataModels
  import Format
  import FileFilter

  /** One record of the extraction service's answer. */
  datatype Proposition = Proposition(lineNum: int, statement: string, proof: string)

  /**
    What the service is asked: the optional extra criterion line and the
    line-numbered rendering of the file. The fixed instruction text around
    them is not modelled.
   */
  datatype ExtractionRequest = ExtractionRequest(criterion: string, document: string)

  type Oracle = ExtractionRequest -> seq<Proposition>

  // ---------------------------------------------------------------------
  // The pre-filter: re.search(r"\bproof\b", content, re.IGNORECASE).
  // ---------------------------------------------------------------------

  predicate IsWordChar(c: char) {
    ('a' <= c <= 'z') || ('A' <= c <= 'Z') || ('0' <= c <= '9') || c == '_'
  }

  function ToLowerAscii(c: char): char {
    if 'A' <= c <= 'Z' then (c as int + 32) as char else c
  }

  /** "proof", in any case, occupies `s[i..i + 5]` with a word boundary on both sides. */
  predicate ProofAt(s: string, i: nat)
    requires i + 5 <= |s|
  {
    && ToLowerAscii(s[i]) == 'p'
    && ToLowerAscii(s[i + 1]) == 'r'
    && ToLowerAscii(s[i + 2]) == 'o'
    && ToLowerAscii(s[i + 3]) == 'o'
    && ToLowerAscii(s[i + 4]) == 'f'
    && (i == 0 || !IsWordChar(s[i - 1]))
    && (i + 5 == |s| || !IsWordChar(s[i + 5]))
  }

  /** The text holds "proof" as a whole word, in any case. */
  predicate HasProofWord(s: string) {
    exists i: nat :: i + 5 <= |s| && ProofAt(s, i)
  }

  /** The leftmost whole-word "proof" at or after `from`, as `re.search` finds it. */
  function SearchProof(s: string, from: nat): (r: Option<nat>)
    ensures r.Some? ==> from <= r.value && r.value + 5 <= |s| && ProofAt(s, r.value)
    ensures r.Some? ==> forall j: nat :: from <= j < r.value ==> !ProofAt(s, j)
    ensures r.None? ==> forall j: nat :: from <= j && j + 5 <= |s| ==> !ProofAt(s, j)
    decreases |s| - from
  {
    if from + 5 > |s| then None
    else if ProofAt(s, from) then Some(from)
    else SearchProof(s, from + 1)
  }

  /** The search from the start succeeds exactly when the text holds the word. */
  lemma SearchProofIff(s: string)
    ensures SearchProof(s, 0).Some? <==> HasProofWord(s)
  {
    if SearchProof(s, 0).Some? {
      var i := SearchProof(s, 0).value;
      assert ProofAt(s, i);
    }
  }

  /** The gate is case-insensitive. */
  lemma PrefilterAccepts()
    ensures HasProofWord("Proof: by induction.")
    ensures HasProofWord("see the PROOF")
  {
    assert ProofAt("Proof: by induction.", 0);
    assert ProofAt("see the PROOF", 8);
  }

  /** The gate needs the whole word: a plural, a compound or an identifier does not pass. */
  lemma PrefilterRejectsPlural()
    ensures !HasProofWord("proofs follow")
  {
    SearchProofIff("proofs follow");
  }

  lemma PrefilterRejectsCompound()
    ensures !HasProofWord("waterproof")
  {
    SearchProofIff("waterproof");
  }

  lemma PrefilterRejectsIdentifier()
    ensures !HasProofWord("proof_of_work")
  {
    SearchProofIff("proof_of_work");
  }

  // ---------------------------------------------------------------------
  // The optional criterion line.
  // ---------------------------------------------------------------------

  /** `str.isspace()` for one character: the characters Python treats as whitespace. */
  predicate IsSpace(c: char) {
    var n := c as int;
    (9 <= n <= 13) || (28 <= n <= 32) || n == 0x85 || n == 0xA0 || n == 0x1680 ||
    (0x2000 <= n <= 0x200A) || n == 0x2028 || n == 0x2029 || n == 0x202F ||
    n == 0x205F || n == 0x3000
  }

  /** Drops leading whitespace. */
  function TrimStart(s: string): (r: string)
    ensures |r| <= |s| && r == s[|s| - |r|..]
    ensures forall i :: 0 <= i < |s| - |r| ==> IsSpace(s[i])
    ensures |r| > 0 ==> !IsSpace(r[0])
  {
    if |s| > 0 && IsSpace(s[0]) then
      var t := TrimStart(s[1..]);
      assert forall i :: 1 <= i < |s| ==> s[i] == s[1..][i - 1];
      t
    else s
  }

  /** Drops trailing whitespace. */
  function TrimEnd(s: string): (r: string)
    ensures |r| <= |s| && r == s[..|r|]
    ensures forall i :: |r| <= i < |s| ==> IsSpace(s[i])
    ensures |r| > 0 ==> !IsSpace(r[|r| - 1])
  {
    if |s| > 0 && IsSpace(s[|s| - 1]) then
      var t := TrimEnd(s[..|s| - 1]);
      assert forall i :: 0 <= i < |s| - 1 ==> s[i] == s[..|s| - 1][i];
      t
    else s
  }

  /** `s.strip()`. */
  function Strip(s: string): string {
    TrimEnd(TrimStart(s))
  }

  lemma TrimStartEmptyIff(s: string)
    ensures TrimStart(s) == [] <==> forall i :: 0 <= i < |s| ==> IsSpace(s[i])
  {
  }

  lemma TrimEndEmptyIff(s: string)
    ensures TrimEnd(s) == [] <==> forall i :: 0 <= i < |s| ==> IsSpace(s[i])
  {
  }

  /** `s.strip()` is empty exactly when every character of `s` is whitespace. */
  lemma StripEmptyIff(s: string)
    ensures Strip(s) == [] <==> forall i :: 0 <= i < |s| ==> IsSpace(s[i])
  {
    var t := TrimStart(s);
    TrimStartEmptyIff(s);
    TrimEndEmptyIff(t);
    assert (forall i :: 0 <= i < |t| ==> IsSpace(t[i])) <==> |t| == 0;
  }

  /**
    The criterion line: "* " followed by the caller's filter, unless there
    is no filter or it is blank, in which case the line is empty.
   */
  function FilterText(filter: Option<string>): (r: string)
    ensures r == [] <==> filter.None? || forall i :: 0 <= i < |filter.value| ==> IsSpace(filter.value[i])
    ensures r != [] ==> r == "* " + filter.value
  {
    if filter.Some? then
      StripEmptyIff(filter.value);
      if Strip(filter.value) != [] then "* " + filter.value else ""
    else ""
  }

  // ---------------------------------------------------------------------
  // One file, then all files.
  // ---------------------------------------------------------------------

  /** The request built for a file that passes the gate. */
  function Request(content: string, filter: Option<string>, relPath: Option<Path>): ExtractionRequest {
    ExtractionRequest(FilterText(filter), Format.FormatFile(content, relPath))
  }

  /**
    `_extract_propositions`: nothing, and no request at all, unless the text
    holds the word "proof"; otherwise whatever the service answers to the
    request for this file.
   */
  function ExtractPropositions(content: string, filter: Option<string>, relPath: Option<Path>, oracle: Oracle): (r: seq<Proposition>)
    ensures !HasProofWord(content) ==> r == []
    ensures HasProofWord(content) ==> r == oracle(Request(content, filter, relPath))
  {
    SearchProofIff(content);
    if SearchProof(content, 0).None? then []
    else oracle(Request(content, filter, relPath))
  }

  /** What extraction yields for each file, as seen by the collecting loop. */
  type Extractor = Path -> seq<Proposition>

  /** Extraction over the files of a tree: the content at `p`, shown under the name `p`. */
  function TreeExtractor(root: FileFilter.Node, filter: Option<string>, oracle: Oracle): Extractor {
    p => ExtractPropositions(FileFilter.FileContent(root, p), filter, Some(p), oracle)
  }

  /** The locations contributed by the file at `p`: one per proposition, in the service's order. */
  function FileLocations(p: Path, props: seq<Proposition>): (r: seq<PropertyLocation>)
    ensures |r| == |props|
    ensures forall j :: 0 <= j < |r| ==> r[j].relPath == p && r[j].lineNum == props[j].lineNum
  {
    seq(|props|, j requires 0 <= j < |props| => PropertyLocation(p, props[j].lineNum))
  }

  /** How many propositions extraction finds in all of `paths` together. */
  function PropositionCount(paths: seq<Path>, extract: Extractor): nat
    decreases |paths|
  {
    if |paths| == 0 then 0 else |extract(paths[0])| + PropositionCount(paths[1..], extract)
  }

  /** The loop of `get_all_properties`: one location per proposition, file by file. */
  function Locations(paths: seq<Path>, extract: Extractor): (r: seq<PropertyLocation>)
    ensures |r| == PropositionCount(paths, extract)
    ensures forall k :: 0 <= k < |r| ==> r[k].relPath in paths
    decreases |paths|
  {
    if |paths| == 0 then []
    else FileLocations(paths[0], extract(paths[0])) + Locations(paths[1..], extract)
  }

  /** Collecting over two runs of files is collecting over each in turn. */
  lemma {:induction false} LocationsAppend(a: seq<Path>, b: seq<Path>, extract: Extractor)
    ensures Locations(a + b, extract) == Locations(a, extract) + Locations(b, extract)
    decreases |a|
  {
    if |a| == 0 {
      assert a + b == b;
    } else {
      assert (a + b)[0] == a[0];
      assert (a + b)[1..] == a[1..] + b;
      LocationsAppend(a[1..], b, extract);
    }
  }

  /** Where the `k`-th location comes from: the first file's locations, or the rest's. */
  lemma LocationsIndex(paths: seq<Path>, extract: Extractor, k: nat)
    requires k < |Locations(paths, extract)|
    ensures |paths| > 0
    ensures var first := FileLocations(paths[0], extract(paths[0]));
            var rest := Locations(paths[1..], extract);
            |Locations(paths, extract)| == |first| + |rest| &&
            (k < |first| ==> Locations(paths, extract)[k] == first[k]) &&
            (k >= |first| ==> Locations(paths, extract)[k] == rest[k - |first|])
  {
    var first := FileLocations(paths[0], extract(paths[0]));
    var rest := Locations(paths[1..], extract);
    assert Locations(paths, extract) == first + rest;
  }

  /** The locations around the `i`-th file: those before it, its own block, those after it. */
  lemma LocationsSplit(paths: seq<Path>, extract: Extractor, i: nat)
    requires i < |paths|
    ensures Locations(paths, extract) ==
            Locations(paths[..i], extract) + (FileLocations(paths[i], extract(paths[i])) + Locations(paths[i + 1..], extract))
  {
    assert paths == paths[..i] + paths[i..];
    LocationsAppend(paths[..i], paths[i..], extract);
    assert paths[i..][0] == paths[i] && paths[i..][1..] == paths[i + 1..];
  }

  /**
    Every proposition extracted from every listed file yields its location,
    at its own place: after all propositions of the earlier files, and
    within its file in the order extraction returned them.
   */
  lemma {:induction false} LocationsComplete(paths: seq<Path>, extract: Extractor, i: nat, j: nat)
    requires i < |paths| && j < |extract(paths[i])|
    ensures var k := PropositionCount(paths[..i], extract) + j;
            k < |Locations(paths, extract)| &&
            Locations(paths, extract)[k] == PropertyLocation(paths[i], extract(paths[i])[j].lineNum)
    ensures PropertyLocation(paths[i], extract(paths[i])[j].lineNum) in Locations(paths, extract)
  {
    LocationsSplit(paths, extract, i);
    var before := Locations(paths[..i], extract);
    var block := FileLocations(paths[i], extract(paths[i]));
    var after := Locations(paths[i + 1..], extract);
    assert Locations(paths, extract)[|before| + j] == (before + (block + after))[|before| + j] == block[j];
  }

  /**
    Each location's line number is one that extraction returned for that
    location's file.
   */
  lemma {:induction false} LocationsLineNumbers(paths: seq<Path>, extract: Extractor, k: nat)
    requires k < |Locations(paths, extract)|
    ensures var loc := Locations(paths, extract)[k];
            exists j :: 0 <= j < |extract(loc.relPath)| && extract(loc.relPath)[j].lineNum == loc.lineNum
    decreases |paths|
  {
    LocationsIndex(paths, extract, k);
    var first := FileLocations(paths[0], extract(paths[0]));
    if k < |first| {
      assert extract(paths[0])[k].lineNum == first[k].lineNum;
    } else {
      LocationsLineNumbers(paths[1..], extract, k - |first|);
    }
  }

  /** Locations grouped by file, the files in ascending order. */
  predicate InFileOrder(r: seq<PropertyLocation>) {
    forall i, j :: 0 <= i < j < |r| ==> PathLe(r[i].relPath, r[j].relPath)
  }

  /** One file's locations followed by those of files no smaller than it stay in file order. */
  lemma ConcatInFileOrder(p0: Path, first: seq<PropertyLocation>, rest: seq<PropertyLocation>, others: seq<Path>)
    requires forall j :: 0 <= j < |first| ==> first[j].relPath == p0
    requires forall j :: 0 <= j < |rest| ==> rest[j].relPath in others
    requires forall x :: x in others ==> PathLe(p0, x)
    requires InFileOrder(rest)
    ensures InFileOrder(first + rest)
  {
    var r := first + rest;
    forall i, j | 0 <= i < j < |r|
      ensures PathLe(r[i].relPath, r[j].relPath)
    {
      if j < |first| {
        assert r[i] == first[i] && r[j] == first[j];
      } else if i < |first| {
        assert r[i] == first[i] && r[j] == rest[j - |first|];
      } else {
        assert r[i] == rest[i - |first|] && r[j] == rest[j - |first|];
      }
    }
  }

  /** Locations follow the file order: sorted files give locations sorted by file. */
  lemma {:induction false} LocationsInFileOrder(paths: seq<Path>, extract: Extractor)
    requires Sorted(paths)
    ensures InFileOrder(Locations(paths, extract))
    decreases |paths|
  {
    if |paths| > 0 {
      var first := FileLocations(paths[0], extract(paths[0]));
      var rest := Locations(paths[1..], extract);
      assert Locations(paths, extract) == first + rest;
      SortedHead(paths);
      LocationsInFileOrder(paths[1..], extract);
      ConcatInFileOrder(paths[0], first, rest, paths[1..]);
    }
  }

  /** `get_all_properties`: the locations over all eligible files, in sorted file order. */
  function GetAllProperties<R>(lib: FileFilter.IgnoreLib<R>, root: FileFilter.Node, filterPaths: seq<string>,
                               filter: Option<string>, oracle: Oracle): (r: seq<PropertyLocation>)
    requires root.Dir?
    ensures forall k :: 0 <= k < |r| ==> r[k].relPath in FileFilter.RelPaths(lib, root, filterPaths)
  {
    Locations(FileFilter.RelPaths(lib, root, filterPaths), TreeExtractor(root, filter, oracle))
  }

  /** Every proposition that extraction returns for an eligible file is discovered. */
  lemma GetAllPropertiesComplete<R>(lib: FileFilter.IgnoreLib<R>, root: FileFilter.Node, filterPaths: seq<string>,
                                    filter: Option<string>, oracle: Oracle, p: Path, j: nat)
    requires root.Dir? && FileFilter.WellFormed(root) && FileFilter.Eligible(lib, root, filterPaths, p)
    requires j < |ExtractPropositions(FileFilter.FileContent(root, p), filter, Some(p), oracle)|
    ensures var r := GetAllProperties(lib, root, filterPaths, filter, oracle);
            var props := ExtractPropositions(FileFilter.FileContent(root, p), filter, Some(p), oracle);
            PropertyLocation(p, props[j].lineNum) in r
  {
    var paths := FileFilter.RelPaths(lib, root, filterPaths);
    FileFilter.RelPathsIff(lib, root, filterPaths, p);
    var i :| 0 <= i < |paths| && paths[i] == p;
    LocationsComplete(paths, TreeExtractor(root, filter, oracle), i, j);
  }

  /**
    The propositions of the `i`-th listed file are discovered at their own
    place: after those of the files listed before it, in the order extraction
    returned them. `paths` names the sorted listing, in which each file has
    one index (`FileFilter.RelPathsStrict`).
   */
  lemma GetAllPropertiesAt<R>(lib: FileFilter.IgnoreLib<R>, root: FileFilter.Node, filterPaths: seq<string>,
                              filter: Option<string>, oracle: Oracle, paths: seq<Path>, i: nat, j: nat)
    requires root.Dir? && paths == FileFilter.RelPaths(lib, root, filterPaths)
    requires i < |paths| && j < |ExtractPropositions(FileFilter.FileContent(root, paths[i]), filter, Some(paths[i]), oracle)|
    ensures var r := GetAllProperties(lib, root, filterPaths, filter, oracle);
            var props := ExtractPropositions(FileFilter.FileContent(root, paths[i]), filter, Some(paths[i]), oracle);
            var k := PropositionCount(paths[..i], TreeExtractor(root, filter, oracle)) + j;
            k < |r| && r[k] == PropertyLocation(paths[i], props[j].lineNum)
  {
    LocationsComplete(paths, TreeExtractor(root, filter, oracle), i, j);
  }

  /** Every discovered location names an eligible file. */
  lemma GetAllPropertiesEligible<R>(lib: FileFilter.IgnoreLib<R>, root: FileFilter.Node, filterPaths: seq<string>,
                                    filter: Option<string>, oracle: Oracle)
    requires root.Dir? && FileFilter.WellFormed(root)
    ensures var r := GetAllProperties(lib, root, filterPaths, filter, oracle);
            forall k :: 0 <= k < |r| ==> FileFilter.Eligible(lib, root, filterPaths, r[k].relPath)
  {
    var r := GetAllProperties(lib, root, filterPaths, filter, oracle);
    forall k | 0 <= k < |r|
      ensures FileFilter.Eligible(lib, root, filterPaths, r[k].relPath)
    {
      FileFilter.RelPathsIff(lib, root, filterPaths, r[k].relPath);
    }
  }

  /** Every discovered location names a file whose text holds the word "proof". */
  lemma GetAllPropertiesMentionProof<R>(lib: FileFilter.IgnoreLib<R>, root: FileFilter.Node, filterPaths: seq<string>,
                                        filter: Option<string>, oracle: Oracle)
    requires root.Dir?
    ensures var r := GetAllProperties(lib, root, filterPaths, filter, oracle);
            forall k :: 0 <= k < |r| ==> HasProofWord(FileFilter.FileContent(root, r[k].relPath))
  {
    var paths := FileFilter.RelPaths(lib, root, filterPaths);
    var extract := TreeExtractor(root, filter, oracle);
    var r := GetAllProperties(lib, root, filterPaths, filter, oracle);
    forall k | 0 <= k < |r|
      ensures HasProofWord(FileFilter.FileContent(root, r[k].relPath))
    {
      LocationsLineNumbers(paths, extract, k);
    }
  }

  /** The locations come file by file, in sorted file order. */
  lemma GetAllPropertiesInFileOrder<R>(lib: FileFilter.IgnoreLib<R>, root: FileFilter.Node, filterPaths: seq<string>,
                                       filter: Option<string>, oracle: Oracle)
    requires root.Dir?
    ensures InFileOrder(GetAllProperties(lib, root, filterPaths, filter, oracle))
  {
    LocationsInFileOrder(FileFilter.RelPaths(lib, root, filterPaths), TreeExtractor(root, filter, oracle));
  }
}

=== FILE: file_filter.dfy ===
/**
  Gitignore-aware enumeration of the files to scan.

  The directory tree is an immutable value. A directory's `.gitignore` is
  the entry of that name; its rules are in force in that directory and
  everything below it, and nowhere else. The ignore-pattern library is
  opaque: `fromPattern` turns one pattern line and the directory it is
  relative to into a rule or into nothing (a blank or comment line), and
  `matches` says whether a rule matches a path. Paths are relative to the
  scan root; the absolute prefix the source passes to the library is the
  same for every call and is folded into `matches`.
 */
module FileFilter {
  import opened Wrappers
  import opened Text
  import opened Paths

  const MaxFileSizeBytes: nat := 100 * 1024

  /** Patterns that are always in force, whatever the caller passes. */
  const FilterAlways: seq<string> := ["**/.git/"]

  const GitignoreName: string := ".gitignore"

  /**
    A directory entry. `size` and `isText` stand for `stat().st_size` and
    for whether `read_text()` decodes; `Special` is anything that is
    neither a regular file nor a directory.
   */
  datatype Node =
    | File(name: string, size: nat, isText: bool, content: string)
    | Dir(name: string, entries: seq<Node>)
    | Special(name: string)

  /** The two operations of the ignore-pattern library, left uninterpreted. */
  datatype IgnoreLib<!R> = IgnoreLib(
    fromPattern: (string, Path) -> Option<R>,
    matches: (R, Path) -> bool)

  /** `_is_small_file`: strictly below 100 KiB. */
  predicate IsSmall(size: nat) {
    size < MaxFileSizeBytes
  }

  /** The size test is strict: 102399 bytes is small, 102400 is not. */
  lemma SmallFileBoundary(size: nat)
    ensures IsSmall(size) <==> size < 102400
    ensures IsSmall(102399) && !IsSmall(102400)
  {
  }

  /** A regular file that is small enough and decodes as text. */
  predicate Candidate(e: Node) {
    e.File? && IsSmall(e.size) && e.isText
  }

  /** No two entries of any directory share a name. */
  predicate WellFormed(d: Node)
    decreases d
  {
    d.Dir? ==>
      (forall i, j :: 0 <= i < j < |d.entries| ==> d.entries[i].name != d.entries[j].name) &&
      (forall i :: 0 <= i < |d.entries| ==> WellFormed(d.entries[i]))
  }

  /** The entry called `name`, if any. */
  function Child(entries: seq<Node>, name: string): (r: Option<Node>)
    ensures r.Some? ==> r.value in entries && r.value.name == name
    ensures r.None? ==> forall i :: 0 <= i < |entries| ==> entries[i].name != name
  {
    if |entries| == 0 then None
    else if entries[0].name == name then Some(entries[0])
    else Child(entries[1..], name)
  }

  /** The node reached by following `p` down from `d`. */
  function NodeAt(d: Node, p: Path): Option<Node>
    decreases |p|
  {
    if |p| == 0 then Some(d)
    else if !d.Dir? then None
    else
      match Child(d.entries, p[0])
      case None => None
      case Some(e) => NodeAt(e, p[1..])
  }

  /** The rules the patterns parse to, in order; a pattern that parses to nothing adds no rule. */
  function ParseRules<R>(lib: IgnoreLib<R>, patterns: seq<string>, base: Path): (rules: seq<R>)
    ensures |rules| <= |patterns|
    ensures forall r :: r in rules ==>
              exists i :: 0 <= i < |patterns| && lib.fromPattern(patterns[i], base) == Some(r)
    ensures forall i :: 0 <= i < |patterns| && lib.fromPattern(patterns[i], base).Some? ==>
              lib.fromPattern(patterns[i], base).value in rules
  {
    if |patterns| == 0 then []
    else
      var rest := ParseRules(lib, patterns[1..], base);
      assert forall i :: 1 <= i < |patterns| ==> patterns[i] == patterns[1..][i - 1];
      match lib.fromPattern(patterns[0], base)
      case Some(r) => [r] + rest
      case None => rest
  }

  /**
    The rules of the directory at `dirPath` with entries `entries`: those of
    its `.gitignore` when that entry is a regular file that decodes as text.
   */
  function GitignoreRules<R>(lib: IgnoreLib<R>, dirPath: Path, entries: seq<Node>): seq<R> {
    match Child(entries, GitignoreName)
    case Some(File(_, _, true, content)) => ParseRules(lib, SplitLines(content), dirPath)
    case _ => []
  }

  /** `any(rule.match(p) for rule in rules)`. */
  predicate AnyMatch<R>(lib: IgnoreLib<R>, rules: seq<R>, p: Path) {
    exists i :: 0 <= i < |rules| && lib.matches(rules[i], p)
  }

  /**
    `get_abs_paths(directory, gitignore_rules)`: the files listed for the
    directory `d` at `dirPath`, given the rules inherited from its ancestors
    and the global rules. The files of `d` come first, then the listings of
    its unmatched subdirectories in entry order.
   */
  function Walk<R>(lib: IgnoreLib<R>, global: seq<R>, dirPath: Path, d: Node, inherited: seq<R>): seq<Path>
    requires d.Dir?
    decreases d, 1
  {
    var mine := inherited + GitignoreRules(lib, dirPath, d.entries);
    Files(lib, mine + global, dirPath, d.entries) + Subdirs(lib, global, dirPath, d, mine, 0)
  }

  /** The first loop of `get_abs_paths`: eligible, unmatched files. */
  function Files<R>(lib: IgnoreLib<R>, active: seq<R>, dirPath: Path, entries: seq<Node>): seq<Path> {
    if |entries| == 0 then []
    else
      var e := entries[0];
      var p := dirPath + [e.name];
      (if Candidate(e) && !AnyMatch(lib, active, p) then [p] else [])
      + Files(lib, active, dirPath, entries[1..])
  }

  /**
    The second loop of `get_abs_paths`, from entry `i` on: every unmatched
    subdirectory is walked with a copy of this directory's rules.
   */
  function Subdirs<R>(lib: IgnoreLib<R>, global: seq<R>, dirPath: Path, d: Node, mine: seq<R>, i: nat): seq<Path>
    requires d.Dir? && i <= |d.entries|
    decreases d, 0, |d.entries| - i
  {
    if i == |d.entries| then []
    else
      var e := d.entries[i];
      var p := dirPath + [e.name];
      (if e.Dir? && !AnyMatch(lib, mine + global, p) then Walk(lib, global, p, e, mine) else [])
      + Subdirs(lib, global, dirPath, d, mine, i + 1)
  }

  /**
    The reference definition of eligibility, following one path down from
    `d` rather than enumerating the tree: `dirPath + rest` is listed iff each
    step names an existing entry that no rule in force at that level
    matches, the intermediate entries are directories, and the last is a
    small text file. The rules in force at a level are the inherited ones,
    that directory's `.gitignore` rules and the global ones.
   */
  predicate Reaches<R>(lib: IgnoreLib<R>, global: seq<R>, dirPath: Path, d: Node, inherited: seq<R>, rest: Path)
    requires d.Dir?
    decreases |rest|
  {
    |rest| >= 1 &&
    var mine := inherited + GitignoreRules(lib, dirPath, d.entries);
    var p := dirPath + [rest[0]];
    match Child(d.entries, rest[0])
    case None => false
    case Some(e) =>
      !AnyMatch(lib, mine + global, p) &&
      if |rest| == 1 then Candidate(e)
      else e.Dir? && Reaches(lib, global, p, e, mine, rest[1..])
  }

  /** The global rules: the caller's patterns and the built-in ones, relative to the root. */
  function GlobalRules<R>(lib: IgnoreLib<R>, filterPaths: seq<string>): seq<R> {
    ParseRules(lib, filterPaths + FilterAlways, [])
  }

  /** `_FileFilters(directory, filter_paths).get_abs_paths()`. */
  function AbsPaths<R>(lib: IgnoreLib<R>, root: Node, filterPaths: seq<string>): seq<Path>
    requires root.Dir?
  {
    Walk(lib, GlobalRules(lib, filterPaths), [], root, [])
  }

  /** `_get_rel_paths(directory, filter_paths)`: the listing, sorted. */
  function RelPaths<R>(lib: IgnoreLib<R>, root: Node, filterPaths: seq<string>): (r: seq<Path>)
    requires root.Dir?
    ensures Sorted(r)
    ensures multiset(r) == multiset(AbsPaths(lib, root, filterPaths))
  {
    Sort(AbsPaths(lib, root, filterPaths))
  }

  /** A path relative to the root is eligible for scanning. */
  predicate Eligible<R>(lib: IgnoreLib<R>, root: Node, filterPaths: seq<string>, p: Path)
    requires root.Dir?
  {
    Reaches(lib, GlobalRules(lib, filterPaths), [], root, [], p)
  }

  /** The content of the file at `p`, or "" when there is none. */
  function FileContent(root: Node, p: Path): string {
    match NodeAt(root, p)
    case Some(File(_, _, _, content)) => content
    case _ => ""
  }

  // ---------------------------------------------------------------------
  // The enumeration agrees with the reference definition.
  // ---------------------------------------------------------------------

  lemma {:induction false} FilesIff<R>(lib: IgnoreLib<R>, active: seq<R>, dirPath: Path, entries: seq<Node>, p: Path)
    ensures p in Files(lib, active, dirPath, entries) <==>
            exists i :: 0 <= i < |entries| && Candidate(entries[i]) &&
                        p == dirPath + [entries[i].name] && !AnyMatch(lib, active, p)
    decreases |entries|
  {
    if |entries| > 0 {
      FilesIff(lib, active, dirPath, entries[1..], p);
      assert forall i :: 1 <= i < |entries| ==> entries[i] == entries[1..][i - 1];
      if p in Files(lib, active, dirPath, entries[1..]) {
        var i :| 0 <= i < |entries[1..]| && Candidate(entries[1..][i]) &&
                 p == dirPath + [entries[1..][i].name] && !AnyMatch(lib, active, p);
        assert entries[i + 1] == entries[1..][i];
      }
    }
  }

  /** A path listed by the subdirectory loop from entry `i` on comes from one of those subdirectories. */
  lemma {:induction false} SubdirsSound<R>(lib: IgnoreLib<R>, global: seq<R>, dirPath: Path, d: Node, mine: seq<R>, i: nat, p: Path)
    requires d.Dir? && i <= |d.entries|
    requires p in Subdirs(lib, global, dirPath, d, mine, i)
    ensures exists j :: i <= j < |d.entries| && d.entries[j].Dir? &&
                        !AnyMatch(lib, mine + global, dirPath + [d.entries[j].name]) &&
                        p in Walk(lib, global, dirPath + [d.entries[j].name], d.entries[j], mine)
    decreases |d.entries| - i
  {
    var e := d.entries[i];
    var q := dirPath + [e.name];
    var here := if e.Dir? && !AnyMatch(lib, mine + global, q) then Walk(lib, global, q, e, mine) else [];
    assert Subdirs(lib, global, dirPath, d, mine, i) == here + Subdirs(lib, global, dirPath, d, mine, i + 1);
    if p !in here {
      SubdirsSound(lib, global, dirPath, d, mine, i + 1, p);
    }
  }

  /** The listing of an unmatched subdirectory at or after entry `i` is part of the loop's output. */
  lemma {:induction false} SubdirsComplete<R>(lib: IgnoreLib<R>, global: seq<R>, dirPath: Path, d: Node, mine: seq<R>,
                                              i: nat, j: nat, p: Path)
    requires d.Dir? && i <= j < |d.entries| && d.entries[j].Dir?
    requires !AnyMatch(lib, mine + global, dirPath + [d.entries[j].name])
    requires p in Walk(lib, global, dirPath + [d.entries[j].name], d.entries[j], mine)
    ensures p in Subdirs(lib, global, dirPath, d, mine, i)
    decreases |d.entries| - i
  {
    var e := d.entries[i];
    var q := dirPath + [e.name];
    var here := if e.Dir? && !AnyMatch(lib, mine + global, q) then Walk(lib, global, q, e, mine) else [];
    assert Subdirs(lib, global, dirPath, d, mine, i) == here + Subdirs(lib, global, dirPath, d, mine, i + 1);
    if j > i {
      SubdirsComplete(lib, global, dirPath, d, mine, i + 1, j, p);
    }
  }

  /** In a directory whose names are distinct, looking a name up finds its entry. */
  lemma {:induction false} ChildOfEntry(entries: seq<Node>, i: nat)
    requires i < |entries|
    requires forall a, b :: 0 <= a < b < |entries| ==> entries[a].name != entries[b].name
    ensures Child(entries, entries[i].name) == Some(entries[i])
    decreases |entries|
  {
    if i > 0 {
      assert entries[0].name != entries[i].name;
      assert entries[1..][i - 1] == entries[i];
      ChildOfEntry(entries[1..], i - 1);
    }
  }

  /** Every listed path is accepted by the reference definition. */
  lemma {:induction false} WalkSound<R>(lib: IgnoreLib<R>, global: seq<R>, dirPath: Path, d: Node, inherited: seq<R>, p: Path)
    requires d.Dir? && WellFormed(d)
    requires p in Walk(lib, global, dirPath, d, inherited)
    ensures |p| > |dirPath| && p[..|dirPath|] == dirPath
    ensures Reaches(lib, global, dirPath, d, inherited, p[|dirPath|..])
    decreases d
  {
    var mine := inherited + GitignoreRules(lib, dirPath, d.entries);
    var active := mine + global;
    FilesIff(lib, active, dirPath, d.entries, p);
    if p in Files(lib, active, dirPath, d.entries) {
      var i :| 0 <= i < |d.entries| && Candidate(d.entries[i]) &&
               p == dirPath + [d.entries[i].name] && !AnyMatch(lib, active, p);
      FileReaches(lib, global, dirPath, d, inherited, i);
    } else {
      SubdirsSound(lib, global, dirPath, d, mine, 0, p);
      var j :| 0 <= j < |d.entries| && d.entries[j].Dir? &&
               !AnyMatch(lib, active, dirPath + [d.entries[j].name]) &&
               p in Walk(lib, global, dirPath + [d.entries[j].name], d.entries[j], mine);
      var q := dirPath + [d.entries[j].name];
      WalkSound(lib, global, q, d.entries[j], mine, p);
      SubdirReaches(lib, global, dirPath, d, inherited, j, p);
    }
  }

  /** An unmatched small text file of `d` is reached in one step. */
  lemma FileReaches<R>(lib: IgnoreLib<R>, global: seq<R>, dirPath: Path, d: Node, inherited: seq<R>, i: nat)
    requires d.Dir? && WellFormed(d) && i < |d.entries| && Candidate(d.entries[i])
    requires !AnyMatch(lib, inherited + GitignoreRules(lib, dirPath, d.entries) + global, dirPath + [d.entries[i].name])
    ensures var p := dirPath + [d.entries[i].name];
            p[..|dirPath|] == dirPath && Reaches(lib, global, dirPath, d, inherited, p[|dirPath|..])
  {
    var p := dirPath + [d.entries[i].name];
    ChildOfEntry(d.entries, i);
    assert p[..|dirPath|] == dirPath;
    assert p[|dirPath|..] == [d.entries[i].name];
  }

  /** A path reached below an unmatched subdirectory of `d` is reached from `d`. */
  lemma SubdirReaches<R>(lib: IgnoreLib<R>, global: seq<R>, dirPath: Path, d: Node, inherited: seq<R>, j: nat, p: Path)
    requires d.Dir? && WellFormed(d) && j < |d.entries| && d.entries[j].Dir?
    requires var mine := inherited + GitignoreRules(lib, dirPath, d.entries);
             var q := dirPath + [d.entries[j].name];
             && !AnyMatch(lib, mine + global, q)
             && |p| > |q| && p[..|q|] == q
             && Reaches(lib, global, q, d.entries[j], mine, p[|q|..])
    ensures |p| > |dirPath| && p[..|dirPath|] == dirPath
    ensures Reaches(lib, global, dirPath, d, inherited, p[|dirPath|..])
  {
    var e := d.entries[j];
    var q := dirPath + [e.name];
    ChildOfEntry(d.entries, j);
    var rest := p[|dirPath|..];
    assert p[..|dirPath|] == q[..|dirPath|] == dirPath;
    assert rest[0] == p[|dirPath|] == q[|dirPath|] == e.name;
    assert rest[1..] == p[|q|..];
  }

  /** Every path the reference definition accepts is listed. */
  lemma {:induction false} WalkComplete<R>(lib: IgnoreLib<R>, global: seq<R>, dirPath: Path, d: Node, inherited: seq<R>, p: Path)
    requires d.Dir? && WellFormed(d)
    requires |p| > |dirPath| && p[..|dirPath|] == dirPath
    requires Reaches(lib, global, dirPath, d, inherited, p[|dirPath|..])
    ensures p in Walk(lib, global, dirPath, d, inherited)
    decreases d
  {
    var mine := inherited + GitignoreRules(lib, dirPath, d.entries);
    var active := mine + global;
    var rest := p[|dirPath|..];
    var e := Child(d.entries, rest[0]).value;
    var i :| 0 <= i < |d.entries| && d.entries[i] == e;
    var q := dirPath + [rest[0]];
    assert p[..|q|] == q;
    if |rest| == 1 {
      assert p == q;
      FilesIff(lib, active, dirPath, d.entries, p);
    } else {
      assert p[|q|..] == rest[1..];
      WalkComplete(lib, global, q, e, mine, p);
      SubdirsComplete(lib, global, dirPath, d, mine, 0, i, p);
    }
  }

  /** The enumeration lists exactly the paths the reference definition accepts. */
  lemma WalkIff<R>(lib: IgnoreLib<R>, global: seq<R>, dirPath: Path, d: Node, inherited: seq<R>, p: Path)
    requires d.Dir? && WellFormed(d)
    ensures p in Walk(lib, global, dirPath, d, inherited) <==>
            |p| > |dirPath| && p[..|dirPath|] == dirPath &&
            Reaches(lib, global, dirPath, d, inherited, p[|dirPath|..])
  {
    if p in Walk(lib, global, dirPath, d, inherited) {
      WalkSound(lib, global, dirPath, d, inherited, p);
    }
    if |p| > |dirPath| && p[..|dirPath|] == dirPath && Reaches(lib, global, dirPath, d, inherited, p[|dirPath|..]) {
      WalkComplete(lib, global, dirPath, d, inherited, p);
    }
  }

  /** `_get_rel_paths` returns a path iff it is eligible. */
  lemma RelPathsIff<R>(lib: IgnoreLib<R>, root: Node, filterPaths: seq<string>, p: Path)
    requires root.Dir? && WellFormed(root)
    ensures p in RelPaths(lib, root, filterPaths) <==> Eligible(lib, root, filterPaths, p)
  {
    var abs := AbsPaths(lib, root, filterPaths);
    assert p in RelPaths(lib, root, filterPaths) <==> p in multiset(abs);
    WalkIff(lib, GlobalRules(lib, filterPaths), [], root, [], p);
    assert p[..0] == [] && p[0..] == p;
  }

  /** The file loop lists each file once, each one level below the directory. */
  lemma {:induction false} FilesDistinct<R>(lib: IgnoreLib<R>, active: seq<R>, dirPath: Path, entries: seq<Node>)
    requires forall a, b :: 0 <= a < b < |entries| ==> entries[a].name != entries[b].name
    ensures Distinct(Files(lib, active, dirPath, entries))
    decreases |entries|
  {
    if |entries| > 0 {
      var p := dirPath + [entries[0].name];
      var head := if Candidate(entries[0]) && !AnyMatch(lib, active, p) then [p] else [];
      var tail := Files(lib, active, dirPath, entries[1..]);
      assert forall a :: 0 <= a < |entries[1..]| ==> entries[1..][a] == entries[a + 1];
      FilesDistinct(lib, active, dirPath, entries[1..]);
      forall y | y in tail
        ensures y != p
      {
        FilesIff(lib, active, dirPath, entries[1..], y);
        var k :| 0 <= k < |entries[1..]| && Candidate(entries[1..][k]) &&
                 y == dirPath + [entries[1..][k].name] && !AnyMatch(lib, active, y);
        assert y[|dirPath|] == entries[k + 1].name != entries[0].name;
      }
      DistinctConcat(head, tail);
    }
  }

  /**
    The walk lists no path twice: the files of a directory are one level
    below it and distinct by name, and each subdirectory's listing lies
    below that subdirectory.
   */
  lemma {:induction false} WalkDistinct<R>(lib: IgnoreLib<R>, global: seq<R>, dirPath: Path, d: Node, inherited: seq<R>)
    requires d.Dir? && WellFormed(d)
    ensures Distinct(Walk(lib, global, dirPath, d, inherited))
    decreases d, 1
  {
    var mine := inherited + GitignoreRules(lib, dirPath, d.entries);
    var files := Files(lib, mine + global, dirPath, d.entries);
    var subdirs := Subdirs(lib, global, dirPath, d, mine, 0);
    FilesDistinct(lib, mine + global, dirPath, d.entries);
    SubdirsDistinct(lib, global, dirPath, d, mine, 0);
    forall x | x in files
      ensures x !in subdirs
    {
      FilesIff(lib, mine + global, dirPath, d.entries, x);
      if x in subdirs {
        SubdirsSound(lib, global, dirPath, d, mine, 0, x);
        var j :| 0 <= j < |d.entries| && d.entries[j].Dir? &&
                 !AnyMatch(lib, mine + global, dirPath + [d.entries[j].name]) &&
                 x in Walk(lib, global, dirPath + [d.entries[j].name], d.entries[j], mine);
        WalkSound(lib, global, dirPath + [d.entries[j].name], d.entries[j], mine, x);
        assert false;
      }
    }
    DistinctConcat(files, subdirs);
  }

  /** The subdirectory loop from entry `i` on lists no path twice. */
  lemma {:induction false} SubdirsDistinct<R>(lib: IgnoreLib<R>, global: seq<R>, dirPath: Path, d: Node, mine: seq<R>, i: nat)
    requires d.Dir? && WellFormed(d) && i <= |d.entries|
    ensures Distinct(Subdirs(lib, global, dirPath, d, mine, i))
    decreases d, 0, |d.entries| - i
  {
    if i < |d.entries| {
      var e := d.entries[i];
      var q := dirPath + [e.name];
      var here := if e.Dir? && !AnyMatch(lib, mine + global, q) then Walk(lib, global, q, e, mine) else [];
      var rest := Subdirs(lib, global, dirPath, d, mine, i + 1);
      assert Subdirs(lib, global, dirPath, d, mine, i) == here + rest;
      if e.Dir? && !AnyMatch(lib, mine + global, q) {
        WalkDistinct(lib, global, q, e, mine);
      }
      SubdirsDistinct(lib, global, dirPath, d, mine, i + 1);
      forall y | y in rest
        ensures |y| > |dirPath| && y[|dirPath|] != e.name
      {
        SubdirsSound(lib, global, dirPath, d, mine, i + 1, y);
        var j :| i + 1 <= j < |d.entries| && d.entries[j].Dir? &&
                 !AnyMatch(lib, mine + global, dirPath + [d.entries[j].name]) &&
                 y in Walk(lib, global, dirPath + [d.entries[j].name], d.entries[j], mine);
        var q' := dirPath + [d.entries[j].name];
        WalkSound(lib, global, q', d.entries[j], mine, y);
        assert y[|dirPath|] == q'[|dirPath|] == d.entries[j].name != e.name;
      }
      forall x | x in here
        ensures |x| > |dirPath| && x[|dirPath|] == e.name
      {
        WalkSound(lib, global, q, e, mine, x);
        assert x[|dirPath|] == q[|dirPath|];
      }
      DistinctConcat(here, rest);
    }
  }

  /** `_get_rel_paths` is strictly ascending: every eligible file is listed exactly once. */
  lemma RelPathsStrict<R>(lib: IgnoreLib<R>, root: Node, filterPaths: seq<string>)
    requires root.Dir? && WellFormed(root)
    ensures var r := RelPaths(lib, root, filterPaths);
            forall i, j :: 0 <= i < j < |r| ==> PathLess(r[i], r[j])
  {
    WalkDistinct(lib, GlobalRules(lib, filterPaths), [], root, []);
    DistinctPermutation(AbsPaths(lib, root, filterPaths), RelPaths(lib, root, filterPaths));
    SortedDistinctStrict(RelPaths(lib, root, filterPaths));
  }

  /** The listing is sorted and does not depend on the order entries are visited in. */
  lemma RelPathsSortedUnique<R>(lib: IgnoreLib<R>, root: Node, filterPaths: seq<string>, visited: seq<Path>)
    requires root.Dir?
    requires multiset(visited) == multiset(AbsPaths(lib, root, filterPaths))
    ensures Sort(visited) == RelPaths(lib, root, filterPaths)
  {
    SortIgnoresOrder(visited, AbsPaths(lib, root, filterPaths));
  }

  // ---------------------------------------------------------------------
  // Consequences: what gets listed, pruning and the scope of rules.
  // ---------------------------------------------------------------------

  lemma AnyMatchConcat<R>(lib: IgnoreLib<R>, a: seq<R>, b: seq<R>, p: Path)
    ensures AnyMatch(lib, a + b, p) <==> AnyMatch(lib, a, p) || AnyMatch(lib, b, p)
  {
    if AnyMatch(lib, a + b, p) {
      var k :| 0 <= k < |a + b| && lib.matches((a + b)[k], p);
      if k >= |a| {
        assert b[k - |a|] == (a + b)[k];
      }
    }
    if AnyMatch(lib, a, p) {
      var k :| 0 <= k < |a| && lib.matches(a[k], p);
      assert (a + b)[k] == a[k];
    }
    if AnyMatch(lib, b, p) {
      var k :| 0 <= k < |b| && lib.matches(b[k], p);
      assert (a + b)[|a| + k] == b[k];
    }
  }

  lemma RuleInAnyMatch<R>(lib: IgnoreLib<R>, rules: seq<R>, r: R, p: Path)
    ensures r in rules && lib.matches(r, p) ==> AnyMatch(lib, rules, p)
  {
  }

  lemma {:induction false} ReachesCandidate<R>(lib: IgnoreLib<R>, global: seq<R>, dirPath: Path, d: Node, inherited: seq<R>, rest: Path)
    requires d.Dir?
    requires Reaches(lib, global, dirPath, d, inherited, rest)
    ensures NodeAt(d, rest).Some? && Candidate(NodeAt(d, rest).value)
    ensures !AnyMatch(lib, global, dirPath + rest)
    decreases |rest|
  {
    var mine := inherited + GitignoreRules(lib, dirPath, d.entries);
    var e := Child(d.entries, rest[0]).value;
    var q := dirPath + [rest[0]];
    AnyMatchConcat(lib, mine, global, q);
    if |rest| == 1 {
      assert NodeAt(e, rest[1..]) == Some(e);
      assert dirPath + rest == q;
    } else {
      ReachesCandidate(lib, global, q, e, mine, rest[1..]);
      assert q + rest[1..] == dirPath + rest;
    }
  }

  /**
    Every listed path names a regular file below 100 KiB that decodes as
    text and that no global rule matches; in particular a file of 100 KiB
    or more is never listed, whatever the rules say.
   */
  lemma ListedAreSmallTextFiles<R>(lib: IgnoreLib<R>, root: Node, filterPaths: seq<string>, p: Path)
    requires root.Dir? && WellFormed(root)
    requires p in RelPaths(lib, root, filterPaths)
    ensures NodeAt(root, p).Some? && NodeAt(root, p).value.File?
    ensures NodeAt(root, p).value.size < 102400
    ensures NodeAt(root, p).value.isText
    ensures !AnyMatch(lib, GlobalRules(lib, filterPaths), p)
  {
    RelPathsIff(lib, root, filterPaths, p);
    ReachesCandidate(lib, GlobalRules(lib, filterPaths), [], root, [], p);
    assert [] + p == p;
  }

  /**
    A subdirectory matched by a rule in force is pruned: nothing below it is
    listed, whether or not the rules match the paths inside it.
   */
  lemma PrunedSubtree<R>(lib: IgnoreLib<R>, global: seq<R>, dirPath: Path, d: Node, inherited: seq<R>, j: nat, p: Path)
    requires d.Dir? && WellFormed(d)
    requires j < |d.entries| && d.entries[j].Dir?
    requires AnyMatch(lib, inherited + GitignoreRules(lib, dirPath, d.entries) + global,
                      dirPath + [d.entries[j].name])
    requires |p| > |dirPath| && p[..|dirPath| + 1] == dirPath + [d.entries[j].name]
    ensures p !in Walk(lib, global, dirPath, d, inherited)
  {
    WalkIff(lib, global, dirPath, d, inherited, p);
    ChildOfEntry(d.entries, j);
    var rest := p[|dirPath|..];
    assert rest[0] == p[..|dirPath| + 1][|dirPath|] == d.entries[j].name;
    assert dirPath + [rest[0]] == dirPath + [d.entries[j].name];
  }

  /** A rule inherited by a directory excludes every path it matches in that directory's subtree. */
  lemma {:induction false} InheritedRuleExcludes<R>(lib: IgnoreLib<R>, global: seq<R>, dirPath: Path, d: Node, inherited: seq<R>, rest: Path, r: R)
    requires d.Dir?
    requires r in inherited && lib.matches(r, dirPath + rest)
    ensures !Reaches(lib, global, dirPath, d, inherited, rest)
    decreases |rest|
  {
    if |rest| >= 1 {
      var mine := inherited + GitignoreRules(lib, dirPath, d.entries);
      var q := dirPath + [rest[0]];
      assert r in mine + global;
      if |rest| == 1 {
        assert dirPath + rest == q;
        RuleInAnyMatch(lib, mine + global, r, q);
      } else if Child(d.entries, rest[0]).Some? && Child(d.entries, rest[0]).value.Dir? {
        assert q + rest[1..] == dirPath + rest;
        InheritedRuleExcludes(lib, global, q, Child(d.entries, rest[0]).value, mine, rest[1..], r);
      }
    }
  }

  /**
    A rule of a directory's own `.gitignore` excludes every path it matches
    anywhere in that directory's subtree (the rule is inherited downwards).
   */
  lemma DirectoryRuleCoversSubtree<R>(lib: IgnoreLib<R>, global: seq<R>, dirPath: Path, d: Node, inherited: seq<R>, r: R, p: Path)
    requires d.Dir? && WellFormed(d)
    requires r in GitignoreRules(lib, dirPath, d.entries) && lib.matches(r, p)
    ensures p !in Walk(lib, global, dirPath, d, inherited)
  {
    WalkIff(lib, global, dirPath, d, inherited, p);
    if |p| > |dirPath| && p[..|dirPath|] == dirPath {
      var rest := p[|dirPath|..];
      assert dirPath + rest == p;
      OwnRuleExcludes(lib, global, dirPath, d, inherited, rest, r);
    }
  }

  /** A rule of this directory's own `.gitignore` excludes what it matches below it. */
  lemma OwnRuleExcludes<R>(lib: IgnoreLib<R>, global: seq<R>, dirPath: Path, d: Node, inherited: seq<R>, rest: Path, r: R)
    requires d.Dir?
    requires r in GitignoreRules(lib, dirPath, d.entries) && lib.matches(r, dirPath + rest)
    ensures !Reaches(lib, global, dirPath, d, inherited, rest)
  {
    if |rest| >= 1 {
      var mine := inherited + GitignoreRules(lib, dirPath, d.entries);
      var q := dirPath + [rest[0]];
      assert r in mine && r in mine + global;
      if |rest| == 1 {
        assert dirPath + rest == q;
        RuleInAnyMatch(lib, mine + global, r, q);
      } else if Child(d.entries, rest[0]).Some? && Child(d.entries, rest[0]).value.Dir? {
        assert q + rest[1..] == dirPath + rest;
        InheritedRuleExcludes(lib, global, q, Child(d.entries, rest[0]).value, mine, rest[1..], r);
      }
    }
  }

  /** Replacing one entry by an entry of the same name leaves every other lookup unchanged. */
  lemma {:induction false} ChildUpdate(entries: seq<Node>, j: nat, e: Node, m: string)
    requires j < |entries| && e.name == entries[j].name && m != e.name
    ensures Child(entries[j := e], m) == Child(entries, m)
    decreases |entries|
  {
    if j > 0 && entries[0].name != m {
      assert entries[j := e][1..] == entries[1..][j - 1 := e];
      ChildUpdate(entries[1..], j - 1, e, m);
    }
  }

  /**
    The contents of a subdirectory never affect the listing outside it: a
    `.gitignore` anywhere below entry `j` cannot exclude a file in a sibling
    directory or in an ancestor, and neither can anything else there.
   */
  lemma SubtreeIsolation<R>(lib: IgnoreLib<R>, global: seq<R>, dirPath: Path, d: Node, inherited: seq<R>,
                            j: nat, newEntries: seq<Node>, p: Path)
    requires d.Dir? && WellFormed(d)
    requires j < |d.entries| && d.entries[j].Dir?
    requires WellFormed(Dir(d.entries[j].name, newEntries))
    requires !(|p| > |dirPath| && p[..|dirPath| + 1] == dirPath + [d.entries[j].name])
    ensures p in Walk(lib, global, dirPath, d, inherited) <==>
            p in Walk(lib, global, dirPath, Dir(d.name, d.entries[j := Dir(d.entries[j].name, newEntries)]), inherited)
  {
    var name := d.entries[j].name;
    var e' := Dir(name, newEntries);
    var entries' := d.entries[j := e'];
    var d' := Dir(d.name, entries');
    assert WellFormed(d') by {
      assert forall i :: 0 <= i < |entries'| ==> entries'[i].name == d.entries[i].name;
      forall i | 0 <= i < |entries'|
        ensures WellFormed(entries'[i])
      {
        if i != j {
          assert entries'[i] == d.entries[i];
        }
      }
    }
    assert GitignoreRules(lib, dirPath, entries') == GitignoreRules(lib, dirPath, d.entries) by {
      if name == GitignoreName {
        ChildOfEntry(d.entries, j);
        ChildOfEntry(entries', j);
      } else {
        ChildUpdate(d.entries, j, e', GitignoreName);
      }
    }
    WalkIff(lib, global, dirPath, d, inherited, p);
    WalkIff(lib, global, dirPath, d', inherited, p);
    if |p| > |dirPath| && p[..|dirPath|] == dirPath {
      var rest := p[|dirPath|..];
      assert p[..|dirPath| + 1] == dirPath + [rest[0]];
      ChildUpdate(d.entries, j, e', rest[0]);
      assert Reaches(lib, global, dirPath, d, inherited, rest) <==>
             Reaches(lib, global, dirPath, d', inherited, rest);
    }
  }
}

=== FILE: format.dfy ===
/**
  The line-numbered rendering of a file that is sent for extraction.

  A file with no lines renders as a header naming it followed by "(empty)".
  Otherwise every line k (1-based) is rendered as k right-aligned to the
  number of decimal digits of the line count, then " | ", then the line.
  The width, computed in the source as floor(log10(n)) + 1 in floating
  point, is modelled as the exact digit count of n.
 */
module Format {
  import opened Wrappers
  import opened Text
  import opened Paths

  const Separator: string := "================"

  /** Number of decimal digits of `n`. */
  function NumDigits(n: nat): (d: nat)
    ensures d >= 1
  {
    if n < 10 then 1 else 1 + NumDigits(n / 10)
  }

  function Pow10(e: nat): (p: nat)
    ensures p >= 1
  {
    if e == 0 then 1 else 10 * Pow10(e - 1)
  }

  /** The digit count of a positive n is floor(log10(n)) + 1. */
  lemma {:induction false} NumDigitsIsLog10(n: nat)
    requires n >= 1
    ensures Pow10(NumDigits(n) - 1) <= n < Pow10(NumDigits(n))
  {
    if n >= 10 {
      NumDigitsIsLog10(n / 10);
    }
  }

  /** A smaller number never has more digits: no line number is wider than the width. */
  lemma {:induction false} NumDigitsMonotone(a: nat, b: nat)
    requires a <= b
    ensures NumDigits(a) <= NumDigits(b)
  {
    if a >= 10 {
      NumDigitsMonotone(a / 10, b / 10);
    }
  }

  predicate IsDigit(c: char) {
    '0' <= c <= '9'
  }

  function DigitChar(d: nat): (c: char)
    requires d < 10
    ensures IsDigit(c)
  {
    ['0', '1', '2', '3', '4', '5', '6', '7', '8', '9'][d]
  }

  function DigitValue(c: char): nat
    requires IsDigit(c)
  {
    (c as int - '0' as int) as nat
  }

  /** `str(n)` for a natural number. */
  function DecimalString(n: nat): (s: string)
    ensures |s| == NumDigits(n)
    ensures forall i :: 0 <= i < |s| ==> IsDigit(s[i])
  {
    if n < 10 then [DigitChar(n)] else DecimalString(n / 10) + [DigitChar(n % 10)]
  }

  /** `int(s)` for a string of decimal digits. */
  function ParseDecimal(s: string): nat
    requires forall i :: 0 <= i < |s| ==> IsDigit(s[i])
  {
    if |s| == 0 then 0
    else 10 * ParseDecimal(s[..|s| - 1]) + DigitValue(s[|s| - 1])
  }

  /** Reading back the decimal form of n gives n. */
  lemma {:induction false} ParseDecimalString(n: nat)
    ensures ParseDecimal(DecimalString(n)) == n
  {
    var s := DecimalString(n);
    if n < 10 {
      assert DigitValue(DigitChar(n)) == n;
    } else {
      ParseDecimalString(n / 10);
      assert s[..|s| - 1] == DecimalString(n / 10);
      assert DigitValue(DigitChar(n % 10)) == n % 10;
    }
  }

  function Spaces(k: nat): (s: string)
    ensures |s| == k
    ensures forall i :: 0 <= i < k ==> s[i] == ' '
  {
    if k == 0 then [] else [' '] + Spaces(k - 1)
  }

  /** `format(s, ">" + str(width))`: pad on the left with spaces; never truncate. */
  function RightAlign(s: string, width: nat): (r: string)
    ensures |r| == if |s| < width then width else |s|
    ensures r[|r| - |s|..] == s
    ensures forall i :: 0 <= i < |r| - |s| ==> r[i] == ' '
  {
    if |s| < width then Spaces(width - |s|) + s else s
  }

  /** The rendering of source line number k. */
  function NumberedLine(k: nat, width: nat, line: string): string {
    RightAlign(DecimalString(k), width) + " | " + line
  }

  /** All source lines rendered with numbers of a uniform width. */
  function NumberedLines(lines: seq<string>): (r: seq<string>)
    ensures |r| == |lines|
  {
    var width := NumDigits(|lines|);
    seq(|lines|, i requires 0 <= i < |lines| => NumberedLine(i + 1, width, lines[i]))
  }

  /**
    The name a file is shown under: `str(rel_path)` when a path is given
    (a path object is always truthy; the empty relative path prints as
    "."), `<file>` when none is.
   */
  function Title(relPath: Option<Path>): string {
    match relPath
    case Some(p) => if |p| == 0 then "." else PathString(p)
    case None => "<file>"
  }

  /** `_format_file(content, rel_path)`. */
  function FormatFile(content: string, relPath: Option<Path>): string {
    var name := Title(relPath);
    var lines := SplitLines(content);
    if |lines| == 0 then
      Separator + "\n" + name + " (empty)\n" + Separator + "\n\n\n"
    else
      Separator + "\n" + name + " (line numbers added)\n" + Separator + "\n\n"
      + Join("\n", NumberedLines(lines)) + "\n\n\n"
  }

  /** Drops the leading spaces of `s`. */
  function TrimLeadingSpaces(s: string): (r: string)
    ensures |r| <= |s|
  {
    if |s| > 0 && s[0] == ' ' then TrimLeadingSpaces(s[1..]) else s
  }

  /**
    Reads one rendered line back, given the width of its number column:
    the line number and the source line, or None when it is not of that shape.
   */
  function ParseNumberedLine(s: string, width: nat): Option<(nat, string)> {
    if |s| < width + 3 || s[width..width + 3] != " | " then None
    else
      var digits := TrimLeadingSpaces(s[..width]);
      if |digits| > 0 && forall i :: 0 <= i < |digits| ==> IsDigit(digits[i]) then
        Some((ParseDecimal(digits), s[width + 3..]))
      else None
  }

  lemma {:induction false} TrimSpacesThenDigits(k: nat, d: string)
    requires |d| > 0 && IsDigit(d[0])
    ensures TrimLeadingSpaces(Spaces(k) + d) == d
    decreases k
  {
    if k > 0 {
      assert (Spaces(k) + d)[1..] == Spaces(k - 1) + d;
      TrimSpacesThenDigits(k - 1, d);
    }
  }

  /**
    A rendered line whose number fits the width reads back as its number and
    its source line: stripping the prefix of numbered line k gives line k.
   */
  lemma NumberedLineRoundTrip(k: nat, width: nat, line: string)
    requires 1 <= k && NumDigits(k) <= width
    ensures |NumberedLine(k, width, line)| == width + 3 + |line|
    ensures ParseNumberedLine(NumberedLine(k, width, line), width) == Some((k, line))
  {
    var d := DecimalString(k);
    NumberedLineShape(k, width, line);
    TrimSpacesThenDigits(width - |d|, d);
    ParseDecimalString(k);
  }

  /** Where the parts of a rendered line sit: padded number, " | ", source line. */
  lemma NumberedLineShape(k: nat, width: nat, line: string)
    requires NumDigits(k) <= width
    ensures var s := NumberedLine(k, width, line);
            var d := DecimalString(k);
            && |s| == width + 3 + |line|
            && s[..width] == Spaces(width - |d|) + d
            && s[width..width + 3] == " | "
            && s[width + 3..] == line
  {
    var d := DecimalString(k);
    var prefix := Spaces(width - |d|) + d;
    RightAlignPadded(d, width);
    var rest := " | " + line;
    var s := NumberedLine(k, width, line);
    assert s == prefix + rest;
    SplitAt(prefix, rest);
    assert s[width..width + 3] == rest[..3];
    assert s[width + 3..] == rest[3..];
  }

  /** A string no wider than the column is padded with exactly the missing spaces. */
  lemma RightAlignPadded(d: string, width: nat)
    requires |d| <= width
    ensures RightAlign(d, width) == Spaces(width - |d|) + d
    ensures |Spaces(width - |d|) + d| == width
  {
    if |d| == width {
      assert Spaces(0) == [];
    }
  }

  lemma SplitAt(a: string, b: string)
    ensures (a + b)[..|a|] == a
    ensures (a + b)[|a|..] == b
  {
  }

  lemma NumberedLineNoNewline(k: nat, width: nat, line: string)
    requires NoNewline(line)
    ensures NoNewline(NumberedLine(k, width, line))
  {
    var d := DecimalString(k);
    var a := RightAlign(d, width);
    assert NoNewline(d) by {
      forall i | 0 <= i < |d|
        ensures d[i] != '\n'
      {
        assert IsDigit(d[i]);
      }
    }
    assert NoNewline(a) by {
      forall i | 0 <= i < |a|
        ensures a[i] != '\n'
      {
        if i >= |a| - |d| {
          assert a[i] == a[|a| - |d|..][i - (|a| - |d|)];
        }
      }
    }
    NoNewlineConcat(a, " | ");
    NoNewlineConcat(a + " | ", line);
  }

  /** The header of a rendering: separator, title line, separator, blank line. */
  lemma TerminatedHeader(title: string)
    ensures Terminated([Separator, title, Separator, ""]) ==
            Separator + "\n" + title + "\n" + Separator + "\n\n"
  {
    TerminatedCons("", []);
    TerminatedCons(Separator, [""]);
    TerminatedCons(title, [Separator, ""]);
    TerminatedCons(Separator, [title, Separator, ""]);
  }

  lemma NumberedLayout(sep: string, name: string, j: string)
    ensures sep + "\n" + name + " (line numbers added)\n" + sep + "\n\n" + j + "\n\n\n"
         == (sep + "\n" + (name + " (line numbers added)") + "\n" + sep + "\n\n") + (j + "\n") + "\n\n"
  {
    assert " (line numbers added)\n" == " (line numbers added)" + "\n";
    assert "\n\n\n" == "\n" + "\n\n";
  }

  lemma EmptyLayout(sep: string, name: string)
    ensures sep + "\n" + name + " (empty)\n" + sep + "\n\n\n"
         == (sep + "\n" + (name + " (empty)") + "\n" + sep + "\n\n") + "\n"
  {
    assert " (empty)\n" == " (empty)" + "\n";
    assert "\n\n\n" == "\n\n" + "\n";
  }

  lemma TerminatedThree(head: seq<string>, body: seq<string>, tail: seq<string>)
    ensures Terminated(head + body + tail) == Terminated(head) + Terminated(body) + Terminated(tail)
  {
    TerminatedAppend(head, body);
    TerminatedAppend(head + body, tail);
  }

  /** The rendering of a non-empty file, line by line. */
  lemma FormatNumberedLines(content: string, relPath: Option<Path>)
    requires |SplitLines(content)| > 0
    ensures FormatFile(content, relPath) == Terminated(RenderedLines(Title(relPath), SplitLines(content)))
  {
    var title := Title(relPath) + " (line numbers added)";
    var head := [Separator, title, Separator, ""];
    var body := NumberedLines(SplitLines(content));
    var j := Join("\n", body);
    calc {
      FormatFile(content, relPath);
      Separator + "\n" + Title(relPath) + " (line numbers added)\n" + Separator + "\n\n" + j + "\n\n\n";
      { NumberedLayout(Separator, Title(relPath), j); }
      (Separator + "\n" + title + "\n" + Separator + "\n\n") + (j + "\n") + "\n\n";
      { TerminatedHeader(title); JoinNewlineTerminated(body); TerminatedBlankPair(); }
      Terminated(head) + Terminated(body) + Terminated(["", ""]);
      { TerminatedThree(head, body, ["", ""]); }
      Terminated(head + body + ["", ""]);
    }
  }

  lemma TerminatedBlankPair()
    ensures Terminated(["", ""]) == "\n\n"
  {
    TerminatedCons("", [""]);
    TerminatedCons("", []);
  }

  /** The rendering of a file with no lines is the header alone: no numbered line. */
  lemma FormatEmptyLines(content: string, relPath: Option<Path>)
    requires |SplitLines(content)| == 0
    ensures content == []
    ensures FormatFile(content, relPath) ==
            Terminated([Separator, Title(relPath) + " (empty)", Separator, "", ""])
  {
    var title := Title(relPath) + " (empty)";
    EmptyLayout(Separator, Title(relPath));
    TerminatedAppend([Separator, title, Separator, ""], [""]);
    TerminatedHeader(title);
    TerminatedCons("", []);
    assert [Separator, title, Separator, ""] + [""] == [Separator, title, Separator, "", ""];
  }

  /** The lines a non-empty file renders as: four header lines, the numbered lines, two blank lines. */
  function RenderedLines(title: string, lines: seq<string>): (r: seq<string>)
    ensures |r| == |lines| + 6
  {
    [Separator, title + " (line numbers added)", Separator, ""] + NumberedLines(lines) + ["", ""]
  }

  lemma RenderedLinesNoNewline(title: string, lines: seq<string>)
    requires NoNewline(title)
    requires forall i :: 0 <= i < |lines| ==> NoNewline(lines[i])
    ensures forall i :: 0 <= i < |lines| + 6 ==> NoNewline(RenderedLines(title, lines)[i])
  {
    var all := RenderedLines(title, lines);
    forall i | 0 <= i < |all|
      ensures NoNewline(all[i])
    {
      if 4 <= i < 4 + |lines| {
        RenderedLineAt(title, lines, i - 3);
        NumberedLineNoNewline(i - 3, NumDigits(|lines|), lines[i - 4]);
      } else {
        RenderedFixedLine(title, lines, i);
        NoNewlineConcat(title, " (line numbers added)");
      }
    }
  }

  /** The lines of a rendering around the numbered ones. */
  lemma RenderedFixedLine(title: string, lines: seq<string>, i: nat)
    requires i < |lines| + 6 && !(4 <= i < 4 + |lines|)
    ensures RenderedLines(title, lines)[i] ==
            if i == 0 || i == 2 then Separator
            else if i == 1 then title + " (line numbers added)"
            else ""
  {
    var head := [Separator, title + " (line numbers added)", Separator, ""];
    var body := NumberedLines(lines);
    assert RenderedLines(title, lines) == (head + body) + ["", ""];
    if i < 4 {
      assert ((head + body) + ["", ""])[i] == head[i];
    } else {
      assert ((head + body) + ["", ""])[i] == ["", ""][i - 4 - |lines|];
    }
  }

  lemma NoNewlineConcat(a: string, b: string)
    requires NoNewline(a) && NoNewline(b)
    ensures NoNewline(a + b)
  {
    forall i | 0 <= i < |a + b|
      ensures (a + b)[i] != '\n'
    {
      if i >= |a| {
        assert (a + b)[i] == b[i - |a|];
      }
    }
  }

  /** Splitting the rendering of a non-empty file gives back its rendered lines. */
  lemma FormatSplit(content: string, relPath: Option<Path>)
    requires NoNewline(Title(relPath))
    requires |SplitLines(content)| > 0
    ensures SplitLines(FormatFile(content, relPath)) == RenderedLines(Title(relPath), SplitLines(content))
  {
    var all := RenderedLines(Title(relPath), SplitLines(content));
    FormatNumberedLines(content, relPath);
    RenderedLinesNoNewline(Title(relPath), SplitLines(content));
    SplitTerminated(all);
  }

  /**
    Reading the rendered text of a non-empty file back: it has six lines
    more than the file, and line 3 + k of it (0-based) reads back as the
    number k and the file's k-th line, for every k from 1 to the line count.
   */
  lemma FormatRoundTrip(content: string, relPath: Option<Path>, k: nat)
    requires NoNewline(Title(relPath))
    requires 1 <= k <= |SplitLines(content)|
    ensures |SplitLines(FormatFile(content, relPath))| == |SplitLines(content)| + 6
    ensures ParseNumberedLine(SplitLines(FormatFile(content, relPath))[3 + k],
                              NumDigits(|SplitLines(content)|))
            == Some((k, SplitLines(content)[k - 1]))
  {
    var lines := SplitLines(content);
    FormatSplit(content, relPath);
    RenderedLineAt(Title(relPath), lines, k);
    NumDigitsMonotone(k, |lines|);
    NumberedLineRoundTrip(k, NumDigits(|lines|), lines[k - 1]);
  }

  /** Line 3 + k of a rendering is the k-th source line with its number. */
  lemma RenderedLineAt(title: string, lines: seq<string>, k: nat)
    requires 1 <= k <= |lines|
    ensures RenderedLines(title, lines)[3 + k] == NumberedLine(k, NumDigits(|lines|), lines[k - 1])
  {
    var head := [Separator, title + " (line numbers added)", Separator, ""];
    var body := NumberedLines(lines);
    assert RenderedLines(title, lines) == (head + body) + ["", ""];
    assert ((head + body) + ["", ""])[3 + k] == (head + body)[3 + k] == body[k - 1];
    assert body[k - 1] == NumberedLine(k, NumDigits(|lines|), lines[k - 1]);
  }

  /** A file with no lines reads back as the five header lines and nothing else. */
  lemma FormatEmptyRoundTrip(content: string, relPath: Option<Path>)
    requires NoNewline(Title(relPath))
    requires |SplitLines(content)| == 0
    ensures SplitLines(FormatFile(content, relPath)) ==
            [Separator, Title(relPath) + " (empty)", Separator, "", ""]
  {
    FormatEmptyLines(content, relPath);
    SplitTerminated([Separator, Title(relPath) + " (empty)", Separator, "", ""]);
  }
}

=== FILE: paths.dfy ===
/**
  Relative paths and the order `sorted()` puts them in.

  A path is the list of its components. A POSIX `pathlib` path compares by
  that list, component by component, each component compared as a string by
  code point; a path that is a proper prefix of another sorts first.
 */
module Paths {
  import Text

  type Path = seq<string>

  /** `str(p)` of a relative POSIX path. */
  function PathString(p: Path): string {
    Text.Join("/", p)
  }

  /** Python's `<` on `str`: code-point lexicographic order. */
  predicate StrLess(a: string, b: string)
    decreases |a|
  {
    |b| > 0 &&
    (|a| == 0 || a[0] < b[0] || (a[0] == b[0] && StrLess(a[1..], b[1..])))
  }

  /** Python's `<` on `PurePosixPath`: lexicographic over the components. */
  predicate PathLess(p: Path, q: Path)
    decreases |p|
  {
    |q| > 0 &&
    (|p| == 0 || StrLess(p[0], q[0]) || (p[0] == q[0] && PathLess(p[1..], q[1..])))
  }

  predicate PathLe(p: Path, q: Path) {
    p == q || PathLess(p, q)
  }

  predicate Sorted(s: seq<Path>) {
    forall i, j :: 0 <= i < j < |s| ==> PathLe(s[i], s[j])
  }

  lemma {:induction false} StrLessIrreflexive(a: string)
    ensures !StrLess(a, a)
    decreases |a|
  {
    if |a| > 0 {
      StrLessIrreflexive(a[1..]);
    }
  }

  lemma {:induction false} StrLessTransitive(a: string, b: string, c: string)
    requires StrLess(a, b) && StrLess(b, c)
    ensures StrLess(a, c)
    decreases |a|
  {
    if |a| > 0 && a[0] == b[0] && b[0] == c[0] {
      StrLessTransitive(a[1..], b[1..], c[1..]);
    }
  }

  lemma {:induction false} StrLessTotal(a: string, b: string)
    ensures a == b || StrLess(a, b) || StrLess(b, a)
    decreases |a|
  {
    if |a| > 0 && |b| > 0 && a[0] == b[0] {
      StrLessTotal(a[1..], b[1..]);
      if a[1..] == b[1..] {
        assert a == [a[0]] + a[1..] && b == [b[0]] + b[1..];
      }
    }
  }

  lemma {:induction false} PathLessIrreflexive(p: Path)
    ensures !PathLess(p, p)
    decreases |p|
  {
    if |p| > 0 {
      StrLessIrreflexive(p[0]);
      PathLessIrreflexive(p[1..]);
    }
  }

  lemma {:induction false} PathLessTransitive(p: Path, q: Path, r: Path)
    requires PathLess(p, q) && PathLess(q, r)
    ensures PathLess(p, r)
    decreases |p|
  {
    if |p| > 0 {
      if StrLess(p[0], q[0]) && StrLess(q[0], r[0]) {
        StrLessTransitive(p[0], q[0], r[0]);
      } else if p[0] == q[0] && q[0] == r[0] {
        PathLessTransitive(p[1..], q[1..], r[1..]);
      }
    }
  }

  lemma {:induction false} PathLessTotal(p: Path, q: Path)
    ensures p == q || PathLess(p, q) || PathLess(q, p)
    decreases |p|
  {
    if |p| > 0 && |q| > 0 {
      StrLessTotal(p[0], q[0]);
      if p[0] == q[0] {
        PathLessTotal(p[1..], q[1..]);
        if p[1..] == q[1..] {
          assert p == [p[0]] + p[1..] && q == [q[0]] + q[1..];
        }
      }
    }
  }

  /** The path order is a strict total order, so `PathLe` is a total order. */
  lemma PathLeAntisymmetric(p: Path, q: Path)
    requires PathLe(p, q) && PathLe(q, p)
    ensures p == q
  {
    if p != q {
      PathLessTransitive(p, q, p);
      PathLessIrreflexive(p);
    }
  }

  lemma PathLeTransitive(p: Path, q: Path, r: Path)
    requires PathLe(p, q) && PathLe(q, r)
    ensures PathLe(p, r)
  {
    if p != q && q != r {
      PathLessTransitive(p, q, r);
    }
  }

  /** A path no greater than every element of sorted `s` may go in front. */
  lemma SortedCons(x: Path, s: seq<Path>)
    requires Sorted(s)
    requires forall y :: y in s ==> PathLe(x, y)
    ensures Sorted([x] + s)
  {
    forall i, j | 0 <= i < j < |[x] + s|
      ensures PathLe(([x] + s)[i], ([x] + s)[j])
    {
      if i == 0 {
        assert ([x] + s)[j] == s[j - 1];
      } else {
        assert ([x] + s)[i] == s[i - 1] && ([x] + s)[j] == s[j - 1];
      }
    }
  }

  /** A path no greater than the head of sorted `s` is no greater than all of it. */
  lemma BelowHead(x: Path, s: seq<Path>)
    requires Sorted(s) && |s| > 0 && PathLe(x, s[0])
    ensures forall y :: y in s ==> PathLe(x, y)
  {
    forall y | y in s
      ensures PathLe(x, y)
    {
      var j :| 0 <= j < |s| && s[j] == y;
      if j > 0 {
        PathLeTransitive(x, s[0], s[j]);
      }
    }
  }

  /** Inserts `x` into sorted `s` before the first element not below it. */
  function Insert(x: Path, s: seq<Path>): (r: seq<Path>)
    requires Sorted(s)
    ensures Sorted(r)
    ensures multiset(r) == multiset(s) + multiset{x}
    decreases |s|
  {
    if |s| == 0 then [x]
    else if PathLe(x, s[0]) then
      BelowHead(x, s);
      SortedCons(x, s);
      [x] + s
    else
      var t := Insert(x, s[1..]);
      assert s == [s[0]] + s[1..];
      PathLessTotal(x, s[0]);
      BelowHead(s[0], s);
      assert forall y :: y in t ==> PathLe(s[0], y) by {
        forall y | y in t
          ensures PathLe(s[0], y)
        {
          assert y in multiset(t);
        }
      }
      SortedCons(s[0], t);
      [s[0]] + t
  }

  /** `sorted(xs)`: an ascending rearrangement of `xs`. */
  function Sort(xs: seq<Path>): (r: seq<Path>)
    ensures Sorted(r)
    ensures multiset(r) == multiset(xs)
    decreases |xs|
  {
    if |xs| == 0 then []
    else
      assert xs == [xs[0]] + xs[1..];
      Insert(xs[0], Sort(xs[1..]))
  }

  /** In a sorted run of paths, the rest is sorted and the first is no greater than any other. */
  lemma SortedHead(paths: seq<Path>)
    requires Sorted(paths) && |paths| > 0
    ensures Sorted(paths[1..])
    ensures forall x :: x in paths ==> PathLe(paths[0], x)
  {
    forall x | x in paths
      ensures PathLe(paths[0], x)
    {
      var m :| 0 <= m < |paths| && paths[m] == x;
      if m > 0 {
        assert PathLe(paths[0], paths[m]);
      }
    }
    forall i, j | 0 <= i < j < |paths[1..]|
      ensures PathLe(paths[1..][i], paths[1..][j])
    {
      assert paths[1..][i] == paths[i + 1] && paths[1..][j] == paths[j + 1];
    }
  }

  /** Dropping the head takes one copy of it out of the multiset. */
  lemma TailMultiset(a: seq<Path>)
    requires |a| > 0
    ensures multiset(a[1..]) == multiset(a) - multiset{a[0]}
  {
    assert a == [a[0]] + a[1..];
  }

  /**
    Two sorted sequences holding the same paths are equal: the result of
    sorting does not depend on the order in which the paths were found.
   */
  lemma {:induction false} SortedUnique(a: seq<Path>, b: seq<Path>)
    requires Sorted(a) && Sorted(b)
    requires multiset(a) == multiset(b)
    ensures a == b
    decreases |a|
  {
    assert |a| == |multiset(a)| == |multiset(b)| == |b|;
    if |a| > 0 {
      assert a[0] in multiset(b) && b[0] in multiset(a);
      SortedHead(a);
      SortedHead(b);
      PathLeAntisymmetric(a[0], b[0]);
      TailMultiset(a);
      TailMultiset(b);
      SortedUnique(a[1..], b[1..]);
      assert a == [a[0]] + a[1..];
      assert b == [b[0]] + b[1..];
    }
  }

  /** No path occurs twice. */
  predicate Distinct(s: seq<Path>) {
    forall i, j :: 0 <= i < j < |s| ==> s[i] != s[j]
  }

  /** Two duplicate-free runs with nothing in common concatenate without duplicates. */
  lemma DistinctConcat(a: seq<Path>, b: seq<Path>)
    requires Distinct(a) && Distinct(b)
    requires forall x :: x in a ==> x !in b
    ensures Distinct(a + b)
  {
    var c := a + b;
    forall i, j | 0 <= i < j < |c|
      ensures c[i] != c[j]
    {
      if j < |a| {
        assert c[i] == a[i] && c[j] == a[j];
      } else if i >= |a| {
        assert c[i] == b[i - |a|] && c[j] == b[j - |a|];
      } else {
        assert c[i] == a[i] && c[j] == b[j - |a|];
        assert a[i] in a && b[j - |a|] in b;
      }
    }
  }

  /** A duplicate-free sequence holds each path at most once. */
  lemma {:induction false} DistinctCount(a: seq<Path>, x: Path)
    requires Distinct(a)
    ensures multiset(a)[x] <= 1
    decreases |a|
  {
    if |a| > 0 {
      assert a == [a[0]] + a[1..];
      assert Distinct(a[1..]) by {
        forall i, j | 0 <= i < j < |a[1..]|
          ensures a[1..][i] != a[1..][j]
        {
          assert a[1..][i] == a[i + 1] && a[1..][j] == a[j + 1];
        }
      }
      DistinctCount(a[1..], x);
      if x == a[0] {
        assert x !in a[1..] by {
          forall k | 0 <= k < |a[1..]|
            ensures a[1..][k] != x
          {
            assert a[1..][k] == a[k + 1];
          }
        }
      }
    }
  }

  /** Rearranging a duplicate-free sequence leaves it duplicate-free. */
  lemma DistinctPermutation(a: seq<Path>, b: seq<Path>)
    requires Distinct(a) && multiset(a) == multiset(b)
    ensures Distinct(b)
  {
    forall i, j | 0 <= i < j < |b|
      ensures b[i] != b[j]
    {
      if b[i] == b[j] {
        assert b == b[..j] + [b[j]] + b[j + 1..];
        assert b[i] in b[..j];
        assert multiset(b)[b[j]] >= 2;
        DistinctCount(a, b[j]);
        assert false;
      }
    }
  }

  /** A sorted sequence without duplicates is strictly ascending. */
  lemma SortedDistinctStrict(s: seq<Path>)
    requires Sorted(s) && Distinct(s)
    ensures forall i, j :: 0 <= i < j < |s| ==> PathLess(s[i], s[j])
  {
  }

  /** Sorting any rearrangement of `xs` gives `Sort(xs)`. */
  lemma SortIgnoresOrder(xs: seq<Path>, ys: seq<Path>)
    requires multiset(xs) == multiset(ys)
    ensures Sort(xs) == Sort(ys)
  {
    SortedUnique(Sort(xs), Sort(ys));
  }
}

=== FILE: report.dfy ===
/**
  The command-line driver: check every discovered proposition, pair each
  location with its verdict, and turn the verdicts into an exit status.
 */
module Report {
  import opened Wrappers
  import opened DataModels
  import Extraction
  import FileFilter

  /** The proof checker, one call per location; it runs an agent and is not modelled. */
  type Checker = PropertyLocation -> CorrectnessExplanation

  /** The verdicts for `props`, position by position. */
  function CheckAll(props: seq<PropertyLocation>, checker: Checker): (results: seq<CorrectnessExplanation>)
    ensures |results| == |props|
    ensures forall i :: 0 <= i < |props| ==> results[i] == checker(props[i])
    decreases |props|
  {
    if |props| == 0 then [] else [checker(props[0])] + CheckAll(props[1..], checker)
  }

  /**
    `asyncio.gather` over one task per location. The tasks finish in the
    order `completion` lists (each index once); each result is stored in the
    slot of the task that produced it, so the results come back in task
    order whatever the completion order.
   */
  method Gather(props: seq<PropertyLocation>, checker: Checker, completion: seq<nat>)
    returns (results: seq<CorrectnessExplanation>)
    requires |completion| == |props|
    requires forall k :: 0 <= k < |completion| ==> completion[k] < |props|
    requires forall i :: 0 <= i < |props| ==> i in completion
    ensures |results| == |props|
    ensures forall i :: 0 <= i < |props| ==> results[i] == checker(props[i])
  {
    var slots: seq<Option<CorrectnessExplanation>> := seq(|props|, _ => None);
    var k := 0;
    while k < |completion|
      invariant 0 <= k <= |completion|
      invariant |slots| == |props|
      invariant forall i :: 0 <= i < |slots| ==> slots[i].Some? ==> slots[i].value == checker(props[i])
      invariant forall m :: 0 <= m < k ==> slots[completion[m]].Some?
    {
      var t := completion[k];
      slots := slots[t := Some(checker(props[t]))];
      k := k + 1;
    }
    forall i | 0 <= i < |slots|
      ensures slots[i].Some?
    {
      assert i in completion;
      var m :| 0 <= m < |completion| && completion[m] == i;
      assert slots[completion[m]].Some?;
    }
    results := seq(|slots|, i requires 0 <= i < |slots| => slots[i].value);
  }

  /** Python's `zip`: pairs up to the shorter of the two sequences. */
  function Pair(props: seq<PropertyLocation>, results: seq<CorrectnessExplanation>): (r: seq<PropertyResult>)
    ensures |r| == if |props| <= |results| then |props| else |results|
    ensures forall i :: 0 <= i < |r| ==> r[i].propertyLocation == props[i] && r[i].correctnessExplanation == results[i]
    decreases |props|
  {
    if |props| == 0 || |results| == 0 then []
    else [PropertyResult(props[0], results[0])] + Pair(props[1..], results[1..])
  }

  function LocationsOf(report: seq<PropertyResult>): (r: seq<PropertyLocation>)
    ensures |r| == |report|
    ensures forall i :: 0 <= i < |r| ==> r[i] == report[i].propertyLocation
  {
    seq(|report|, i requires 0 <= i < |report| => report[i].propertyLocation)
  }

  function VerdictsOf(report: seq<PropertyResult>): (r: seq<CorrectnessExplanation>)
    ensures |r| == |report|
    ensures forall i :: 0 <= i < |r| ==> r[i] == report[i].correctnessExplanation
  {
    seq(|report|, i requires 0 <= i < |report| => report[i].correctnessExplanation)
  }

  /** Pairing as many verdicts as locations loses nothing: unzipping gives both back. */
  lemma PairUnzip(props: seq<PropertyLocation>, results: seq<CorrectnessExplanation>)
    requires |props| == |results|
    ensures LocationsOf(Pair(props, results)) == props
    ensures VerdictsOf(Pair(props, results)) == results
  {
  }

  /**
    The exit status, decided on the dumped JSON: 1 as soon as one verdict is
    written as anything but "correct", 0 when the run ends normally.
   */
  function ExitStatus(report: seq<PropertyResult>): (code: int)
    ensures code == 0 || code == 1
    ensures code == 1 <==> exists i :: 0 <= i < |report| &&
                                      CorrectnessName(report[i].correctnessExplanation.correctness) != "correct"
    decreases |report|
  {
    if |report| == 0 then 0
    else if CorrectnessName(report[0].correctnessExplanation.correctness) != "correct" then 1
    else
      var code := ExitStatus(report[1..]);
      assert forall i :: 0 < i < |report| ==> report[i] == report[1..][i - 1];
      code
  }

  /** Status 0 exactly when every verdict is `Correct`; an empty report succeeds. */
  lemma ExitStatusZeroIff(report: seq<PropertyResult>)
    ensures ExitStatus(report) == 0 <==>
            forall i :: 0 <= i < |report| ==> report[i].correctnessExplanation.correctness == Correct
  {
    if ExitStatus(report) == 0 {
      forall i | 0 <= i < |report|
        ensures report[i].correctnessExplanation.correctness == Correct
      {
        assert CorrectnessName(report[i].correctnessExplanation.correctness) == "correct";
      }
    }
  }

  /** One `Unknown` verdict among correct ones fails the run. */
  lemma ExitStatusExample(loc: PropertyLocation)
    ensures var ok := PropertyResult(loc, CorrectnessExplanation(Correct, "holds"));
            var unsure := PropertyResult(loc, CorrectnessExplanation(Unknown, "unclear"));
            ExitStatus([ok, unsure]) == 1 && ExitStatus([ok, ok]) == 0 && ExitStatus([]) == 0
  {
    var ok := PropertyResult(loc, CorrectnessExplanation(Correct, "holds"));
    var unsure := PropertyResult(loc, CorrectnessExplanation(Unknown, "unclear"));
    assert [ok, unsure][1] == unsure;
    ExitStatusZeroIff([ok, ok]);
  }

  /** What a run produces: the dumped report and the process exit status. */
  datatype Outcome = Outcome(report: seq<PropertyResult>, status: int)

  /**
    The second half of `main`: check every discovered proposition, pair each
    location with its verdict in order and compute the exit status.
   */
  function Report(props: seq<PropertyLocation>, checker: Checker): (o: Outcome)
    ensures LocationsOf(o.report) == props
    ensures forall i :: 0 <= i < |o.report| ==> o.report[i].correctnessExplanation == checker(props[i])
    ensures o.status == 0 <==> forall i :: 0 <= i < |o.report| ==> o.report[i].correctnessExplanation.correctness == Correct
    ensures o.status == 1 <==> exists i :: 0 <= i < |o.report| && o.report[i].correctnessExplanation.correctness != Correct
  {
    var report := Pair(props, CheckAll(props, checker));
    PairUnzip(props, CheckAll(props, checker));
    ExitStatusZeroIff(report);
    Outcome(report, ExitStatus(report))
  }

  /**
    `main`: discover the propositions (a missing `--filter-path` list counts
    as an empty one), check each, pair locations with verdicts in order and
    compute the exit status.
   */
  function Run<R>(lib: FileFilter.IgnoreLib<R>, root: FileFilter.Node, filterPath: Option<seq<string>>,
                  propertyFilter: Option<string>, oracle: Extraction.Oracle, checker: Checker): (o: Outcome)
    requires root.Dir?
    ensures var props := Extraction.GetAllProperties(lib, root, filterPath.GetOr([]), propertyFilter, oracle);
            && LocationsOf(o.report) == props
            && (forall i :: 0 <= i < |o.report| ==> o.report[i].correctnessExplanation == checker(props[i]))
            && (o.status == 0 <==> forall i :: 0 <= i < |o.report| ==> o.report[i].correctnessExplanation.correctness == Correct)
            && (o.status == 1 <==> exists i :: 0 <= i < |o.report| && o.report[i].correctnessExplanation.correctness != Correct)
  {
    Report(Extraction.GetAllProperties(lib, root, filterPath.GetOr([]), propertyFilter, oracle), checker)
  }

  /** Leaving out `--filter-path` is the same as passing an empty list of patterns. */
  lemma MissingFilterPathIsEmpty<R>(lib: FileFilter.IgnoreLib<R>, root: FileFilter.Node,
                                    propertyFilter: Option<string>, oracle: Extraction.Oracle, checker: Checker)
    requires root.Dir?
    ensures Run(lib, root, None, propertyFilter, oracle, checker) == Run(lib, root, Some([]), propertyFilter, oracle, checker)
  {
  }

  /** Whatever order the checks finish in, the outcome is the one `Report` describes. */
  method ReportConcurrently(props: seq<PropertyLocation>, checker: Checker, completion: seq<nat>) returns (o: Outcome)
    requires |completion| == |props|
    requires forall k :: 0 <= k < |completion| ==> completion[k] < |completion|
    requires forall i :: 0 <= i < |completion| ==> i in completion
    ensures o == Report(props, checker)
  {
    var results := Gather(props, checker, completion);
    assert results == CheckAll(props, checker);
    var report := Pair(props, results);
    o := Outcome(report, ExitStatus(report));
  }
}

=== FILE: text.dfy ===
/**
  Line splitting and joining of Python strings, as used by the file renderer
  and by the reader of `.gitignore` files.

  `str.splitlines()` is modelled as splitting on '\n' only: a trailing
  newline does not produce a final empty line, and the empty string has no
  lines at all.
 */
module Text {

  /** True iff `s` holds no line break. */
  predicate NoNewline(s: string) {
    forall i :: 0 <= i < |s| ==> s[i] != '\n'
  }

  /** Index of the first '\n' in `s`, or `|s|` when there is none. */
  function NewlineIndex(s: string): (i: nat)
    ensures i <= |s|
    ensures i < |s| ==> s[i] == '\n'
    ensures NoNewline(s[..i])
  {
    if |s| == 0 then 0
    else if s[0] == '\n' then 0
    else
      var j := NewlineIndex(s[1..]);
      assert s[1..][..j] == s[1..j + 1];
      1 + j
  }

  /** `s.splitlines()` for text whose only line break is '\n'. */
  function SplitLines(s: string): (lines: seq<string>)
    ensures forall k :: 0 <= k < |lines| ==> NoNewline(lines[k])
    ensures |s| == 0 <==> |lines| == 0
    decreases |s|
  {
    if |s| == 0 then []
    else
      var i := NewlineIndex(s);
      if i == |s| then [s] else [s[..i]] + SplitLines(s[i + 1..])
  }

  /** Every line followed by '\n': the text a sequence of lines prints as. */
  function Terminated(lines: seq<string>): string {
    if |lines| == 0 then [] else lines[0] + "\n" + Terminated(lines[1..])
  }

  /** `sep.join(xs)`. */
  function Join(sep: string, xs: seq<string>): string {
    if |xs| == 0 then []
    else if |xs| == 1 then xs[0]
    else xs[0] + sep + Join(sep, xs[1..])
  }

  /** The first '\n' of `a + "\n" + b` is the one after `a` when `a` has none. */
  lemma NewlineIndexAfter(a: string, b: string)
    requires NoNewline(a)
    ensures NewlineIndex(a + "\n" + b) == |a|
  {
    var s := a + "\n" + b;
    assert forall j :: 0 <= j < |a| ==> s[j] == a[j];
    assert s[|a|] == '\n';
  }

  /** Splitting the printed form of newline-free lines gives the lines back. */
  lemma {:induction false} SplitTerminated(lines: seq<string>)
    requires forall k :: 0 <= k < |lines| ==> NoNewline(lines[k])
    ensures SplitLines(Terminated(lines)) == lines
    decreases |lines|
  {
    if |lines| > 0 {
      var rest := Terminated(lines[1..]);
      var s := lines[0] + "\n" + rest;
      assert Terminated(lines) == s;
      NewlineIndexAfter(lines[0], rest);
      assert s[..|lines[0]|] == lines[0];
      assert s[|lines[0]| + 1..] == rest;
      SplitTerminated(lines[1..]);
      assert lines == [lines[0]] + lines[1..];
    }
  }

  /**
    Printing the lines of `s` gives `s` back, except that a final line
    without its '\n' gains one.
   */
  lemma {:induction false} TerminatedSplit(s: string)
    ensures Terminated(SplitLines(s)) ==
            if |s| == 0 || s[|s| - 1] == '\n' then s else s + "\n"
    decreases |s|
  {
    if |s| > 0 {
      var i := NewlineIndex(s);
      if i == |s| {
        assert s[|s| - 1] != '\n' by {
          assert s[..i][|s| - 1] == s[|s| - 1];
        }
        assert Terminated([s]) == s + "\n";
      } else {
        var tail := s[i + 1..];
        TerminatedSplit(tail);
        TerminatedFirstLine(s);
        SplitAtNewline(s, i);
        if |tail| > 0 {
          assert tail[|tail| - 1] == s[|s| - 1];
        }
      }
    }
  }

  /** Printing the lines of `s` prints its first line, then the lines after it. */
  lemma TerminatedFirstLine(s: string)
    requires NewlineIndex(s) < |s|
    ensures var i := NewlineIndex(s);
            Terminated(SplitLines(s)) == s[..i] + "\n" + Terminated(SplitLines(s[i + 1..]))
  {
    var i := NewlineIndex(s);
    SplitLinesAtNewline(s);
    TerminatedCons(s[..i], SplitLines(s[i + 1..]));
  }

  /** A text with a '\n' splits into the line before it and the lines after it. */
  lemma SplitLinesAtNewline(s: string)
    requires NewlineIndex(s) < |s|
    ensures SplitLines(s) == [s[..NewlineIndex(s)]] + SplitLines(s[NewlineIndex(s) + 1..])
  {
  }

  /** Printing one line in front of others. */
  lemma TerminatedCons(x: string, xs: seq<string>)
    ensures Terminated([x] + xs) == x + "\n" + Terminated(xs)
  {
    assert ([x] + xs)[1..] == xs;
  }

  /** Cutting `s` around the '\n' at `i` and gluing it back gives `s`. */
  lemma SplitAtNewline(s: string, i: nat)
    requires i < |s| && s[i] == '\n'
    ensures s == s[..i] + "\n" + s[i + 1..]
    ensures s + "\n" == s[..i] + "\n" + (s[i + 1..] + "\n")
  {
    assert s == s[..i] + "\n" + s[i + 1..];
  }

  /** Joining non-empty `xs` with '\n' and adding a final '\n' prints them. */
  lemma {:induction false} JoinNewlineTerminated(xs: seq<string>)
    requires |xs| >= 1
    ensures Join("\n", xs) + "\n" == Terminated(xs)
    decreases |xs|
  {
    if |xs| > 1 {
      JoinNewlineTerminated(xs[1..]);
    }
  }

  /** Printing a concatenation of line sequences concatenates the prints. */
  lemma {:induction false} TerminatedAppend(a: seq<string>, b: seq<string>)
    ensures Terminated(a + b) == Terminated(a) + Terminated(b)
    decreases |a|
  {
    if |a| > 0 {
      assert (a + b)[1..] == a[1..] + b;
      TerminatedAppend(a[1..], b);
      assert Terminated(a + b) == a[0] + "\n" + Terminated(a[1..] + b);
    } else {
      assert a + b == b;
    }
  }
}

=== FILE: wrappers.dfy ===
/** The optional value the source writes as `X | None`. */
module Wrappers {

  datatype Option<+T> = None | Some(value: T) {

    /** The value held, or `default` when there is none. */
    function GetOr(default: T): T {
      match this
      case Some(v) => v
      case None => default
    }
  }
}
